=== FILE: README.md ===
# torrust-parse-torrent core, modelled in Dafny

This project models the pure core of `torrust-parse-torrent`:

- **The tolerant bencode decoder `decode_torrent`.** It walks an already
  parsed bencode tree (`Bytes | Int | List | Dict`) and fills a typed
  `Torrent`. The policy:
  - a recognised key with the expected shape sets its field;
  - a wrong shape leaves the field alone;
  - an unknown key is skipped;
  - list entries of the wrong shape are dropped;
  - only a non-dictionary top level and an integer `private` flag other
    than 0 or 1 are fatal.

  The `panic!`s become `Failure` values.
- **The typed torrent model** (`Torrent`, `TorrentInfo`, `TorrentFile`,
  `TorrentNode`), its two `Default` values, and the two read-time
  accessors `file_size` and `announce_urls`.
- **The 20-byte `InfoHash` value type.** This covers:
  - the constructors with exact length checks;
  - the 40-character hexadecimal text form (`Display`, `FromStr`, and the
    serde string codec);
  - the lexicographic byte order.

Modules, one per concern:

| module | file | contents |
|---|---|---|
| `Results` | results.dfy | `Option` and `Result`, with failure propagation |
| `Seqs` | seqs.dfy | `Keep`, the filter-map of the decoder's `if let` list loops, and `Concat`, the flattening of `announce_urls` |
| `Bencode` | bencode.dfy | The `Value` tree, `byte`, `int64` and `Dictionary`, and the iteration orders (`Enumerates`) of a dictionary |
| `DictLoops` | dict_loops.dfy | The `for (key, value) in dict` loop over one iteration order, and the generic argument that its result does not depend on that order |
| `Torrents` | torrent_file.dfy | The records, the defaults, `FileSize` and `AnnounceUrls` |
| `Decoder` | decode_torrent.dfy | `DecodeTorrent` and its three dictionary levels |
| `DecoderProperties` | decode_properties.dfy | What the decoder promises about its result |
| `InfoHashes` | info_hash.dfy | `InfoHash` |

The Rust dictionary is a hash map, so the source's loops visit entries in
an unspecified order. Each dictionary level of the decoder is modelled
twice:

- **A loop in the source's shape.** `FileLoop`, `InfoLoop` and `DecodeLoop`
  run over a sequence of entries that enumerates the map. Each step is the
  source's `match` arm (`StepFile`, `StepInfo`, `StepTop`), and the loop
  stops at the first fatal entry.
- **An order-free overlay.** `OverlayFile`, `OverlayInfo` and `OverlayTop`
  look each recognised key up in the map.

`DecodeTorrent` is defined by the overlays. `Decoder.DecodeOrderFree`
proves that the source-shaped loop yields the same result, record or
failure, for every iteration order. Only the level a loop walks is
iterated entry by entry. Inside `DecodeLoop` the nested `info` dictionary
is decoded by `DecodeInfo`, its overlay. Inside `InfoLoop` each file
dictionary is decoded by `DecodeFile`. That is sound because
`Decoder.InfoDecodeOrderFree` and `Decoder.FileDecodeOrderFree` prove that
`InfoLoop` and `FileLoop` give those same results in every order.

Two parts of the decoder's surroundings are modelled as follows:

- **`String::from_utf8_lossy`** is a parameter `lossy` of the decoder.
  Keys are compared as bytes against ASCII literals. That comparison agrees
  with the source's comparison of the repaired text: a repaired key equals
  an ASCII literal exactly when its bytes equal that literal.
- **Rust's `str::len` and `str::as_bytes`**, used by `FromStr` and
  `visit_str`, are modelled by a UTF-8 encoder (`InfoHashes.Utf8`). A
  character outside ASCII therefore counts for more than one byte, and
  none of its bytes is a hexadecimal digit.

### Two consequences of the code worth knowing

- **A decoded torrent always has a tier list.** Decoding starts from
  `Torrent::default()`, whose `announce_list` is `Some([])`
  (src/models/torrent_file.rs:89). So `announce_urls` never falls back to
  `announce`: a torrent with `announce` and no `announce-list` reports no
  URL, and never fails (`DecoderProperties.SingleFileWithoutTiers`,
  `DecoderProperties.NoAnnounceListKeepsEmptyTiers`).
- **Every dictionary in `files` becomes a file.** Only entries that are not
  dictionaries are dropped (src/utils/parse_torrent_verbose.rs:74-125). A
  dictionary with missing or mistyped keys still becomes a file with an
  empty path, length 0 and no checksum (`DecoderProperties.FilesFilter`,
  `DecoderProperties.UnusableFileIsFresh`).

## Model

| member | source | states |
|---|---|---|
| Decoder.DecodeTorrent | src/utils/parse_torrent_verbose.rs:18-260 | A top-level byte string, integer or list fails with an unexpected-top-level error naming that shape: byte string, integer or list, one per `panic!`. A dictionary fails exactly when its `info` dictionary holds a fatal `private` integer, and only with the `private` error |
| Decoder.PrivateAt | src/utils/parse_torrent_verbose.rs:131-141 | Reading `private` from an `info` dictionary fails exactly when the entry is an integer other than 0 and 1 |
| Decoder.OverlayInfo | src/utils/parse_torrent_verbose.rs:40-172 | Reading an `info` dictionary fails exactly when its `private` entry is fatal |
| Decoder.InfoAt | src/utils/parse_torrent_verbose.rs:26-175 | A dictionary under `info` is decoded from the fresh record and fails exactly on a fatal `private` entry. Any other shape, or no entry, keeps the current record |
| Decoder.OverlayTop | src/utils/parse_torrent_verbose.rs:21-252 | Reading a top-level dictionary fails exactly when its `info` dictionary holds a fatal `private` entry |
| Decoder.TopKeysSpellNames | src/utils/parse_torrent_verbose.rs:25-248 | The top-level key literals are the ASCII bytes of `info`, `announce`, `nodes`, `encoding`, `httpseeds`, `announce-list`, `creation date`, `comment` and `created by` |
| Decoder.InfoKeysSpellNames | src/utils/parse_torrent_verbose.rs:42-168 | The `info` key literals are the ASCII bytes of `name`, `pieces`, `piece length`, `md5sum`, `length`, `files`, `private`, `path`, `root hash` and `source` |
| Decoder.TopKeysDispatch | src/utils/parse_torrent_verbose.rs:25-251 | Each recognised top-level key reaches its own `match` arm, because the keys are distinct |
| Decoder.InfoKeysDispatch | src/utils/parse_torrent_verbose.rs:42-171 | Each recognised `info` key reaches its own `match` arm |
| Decoder.FileKeysDispatch | src/utils/parse_torrent_verbose.rs:84-123 | Each recognised file key reaches its own `match` arm |
| Decoder.StepFile | src/utils/parse_torrent_verbose.rs:84-123 | One file arm only appends to the path. The length changes exactly when an integer arrives under `length`, and it becomes that integer. The checksum changes exactly when a byte string arrives under `md5sum`, and it becomes that text. A `path` list appends its byte strings. A skipped key changes nothing |
| Decoder.Texts | src/utils/parse_torrent_verbose.rs:86-97 | The byte-string items of a list as text: never longer than the list, and every text comes from a byte-string item. `DecoderProperties.TextsAreTheByteStrings` adds the count and the converse, `TextsKeepOrder` the order |
| Decoder.Nodes | src/utils/parse_torrent_verbose.rs:181-198 | The well-shaped `nodes` entries: never more than the entries, and every node comes from one. `DecoderProperties.NodeShape`, `NodesFilter` and `NodesKeepOrder` state the shape, the converse and the order |
| Decoder.Tiers | src/utils/parse_torrent_verbose.rs:215-231 | The tiers of `announce-list`: never more than the entries, and every tier comes from a list entry. `DecoderProperties.TiersFilter`, `TiersKeepOrder` and `EmptyTierKept` state the count, the converse and the order |
| Decoder.Files | src/utils/parse_torrent_verbose.rs:70-129 | The files of `files`: never more than the entries, and every file is a decoded dictionary entry. `DecoderProperties.FilesFilter` and `FilesKeepOrder` state the count, the converse and the order |
| Decoder.OverlayFile | src/utils/parse_torrent_verbose.rs:80-124 | Reading a file dictionary only appends to the path. The length is the `length` integer when there is one and otherwise unchanged; likewise the checksum with a byte-string `md5sum`. A dictionary without the three keys changes nothing |
| Decoder.DecodeFile | src/utils/parse_torrent_verbose.rs:74-125 | A file dictionary gives the byte strings of its `path` list, else an empty path; its `length` integer, else 0; its `md5sum` text, else none |
| Decoder.FileLoop | src/utils/parse_torrent_verbose.rs:80-124 | The file loop over an iteration order of a dictionary reads that dictionary, whatever the order |
| Decoder.PrivateFlag | src/utils/parse_torrent_verbose.rs:131-141 | Fails exactly on an integer other than 0 and 1, naming it. Stores 0 or 1 as given. Any other shape keeps the current flag |
| Decoder.StepInfo | src/utils/parse_torrent_verbose.rs:42-171 | One `info` arm fails exactly on a `private` integer other than 0 and 1. Only the `private` arm changes the flag, and a skipped key changes nothing |
| Decoder.DecodeInfo | src/utils/parse_torrent_verbose.rs:27-173 | An `info` dictionary fails exactly on a fatal `private`, naming the integer. On success the flag is the integer (0 or 1) when `private` is an integer, else absent. `DecoderProperties.InfoScalarShapes` and `InfoListShapes` state the other fields |
| Decoder.InfoLoop | src/utils/parse_torrent_verbose.rs:40-172 | The `info` loop over an iteration order of a dictionary reads that dictionary, failure included, whatever the order |
| Decoder.StepTop | src/utils/parse_torrent_verbose.rs:25-251 | One top-level arm fails exactly on a dictionary `info` with a fatal `private`. Only the `info` arm changes `torrent.info`, and a skipped key changes nothing |
| Decoder.DecodeLoop | src/utils/parse_torrent_verbose.rs:23-252 | The top-level loop over an iteration order of a dictionary reads that dictionary, failure included, whatever the order |
| Decoder.FileStepIsOverlay | src/utils/parse_torrent_verbose.rs:84-123 | One file entry writes only its own field: the step equals reading a one-entry dictionary |
| Decoder.FileOverlayCompose | src/utils/parse_torrent_verbose.rs:80-124 | Reading two file dictionaries without common keys in turn is reading their union |
| Decoder.FileLoopIsOverlay | src/utils/parse_torrent_verbose.rs:80-124 | The file loop body folded over any sequence of entries with distinct keys equals reading the dictionary those entries form |
| Decoder.FileDecodeOrderFree | src/utils/parse_torrent_verbose.rs:74-125 | A file dictionary decodes to the same record in every iteration order |
| Decoder.InfoTextStepIsOverlay | src/utils/parse_torrent_verbose.rs:43-167 | An `info` arm for `name`, `pieces`, `md5sum`, `root hash` or `source` writes only its own field and cannot fail |
| Decoder.InfoOtherStepIsOverlay | src/utils/parse_torrent_verbose.rs:54-170 | The `piece length`, `length`, `files` and `path` arms and the skipped-key arm write only their own field and cannot fail |
| Decoder.InfoStepIsOverlay | src/utils/parse_torrent_verbose.rs:42-171 | One `info` entry, `private` included, gives the same record or failure as reading a one-entry dictionary |
| Decoder.InfoFieldsCompose | src/utils/parse_torrent_verbose.rs:40-172 | Reading the non-`private` fields of two `info` dictionaries without common keys in turn is reading their union |
| Decoder.InfoFieldsKeepPrivate | src/utils/parse_torrent_verbose.rs:131-141 | Only the `private` arm reads or writes the `private` flag |
| Decoder.InfoOverlayCompose | src/utils/parse_torrent_verbose.rs:40-172 | Reading two `info` dictionaries without common keys in turn is reading their union. A failure on the first stays the failure of the union |
| Decoder.InfoLoopIsOverlay | src/utils/parse_torrent_verbose.rs:40-172 | The `info` loop body, stopping at the first fatal entry, run over entries with distinct keys equals reading the dictionary they form |
| Decoder.InfoDecodeOrderFree | src/utils/parse_torrent_verbose.rs:27-173 | An `info` dictionary decodes to the same record, or the same failure, in every iteration order |
| Decoder.TopTextStepIsOverlay | src/utils/parse_torrent_verbose.rs:176-247 | The `announce`, `encoding`, `comment` and `created by` arms write only their own field and cannot fail |
| Decoder.TopListStepIsOverlay | src/utils/parse_torrent_verbose.rs:181-232 | The `nodes`, `httpseeds` and `announce-list` arms write only their own field and cannot fail |
| Decoder.TopOtherStepIsOverlay | src/utils/parse_torrent_verbose.rs:233-250 | The `creation date` arm and the skipped-key arm write only their own field and cannot fail |
| Decoder.TopStepIsOverlay | src/utils/parse_torrent_verbose.rs:25-251 | One top-level entry, `info` included, gives the same record or failure as reading a one-entry dictionary |
| Decoder.TopFieldsCompose | src/utils/parse_torrent_verbose.rs:23-252 | Reading the non-`info` fields of two top-level dictionaries without common keys in turn is reading their union |
| Decoder.TopFieldsKeepInfo | src/utils/parse_torrent_verbose.rs:26-175 | Only the `info` arm reads or writes `torrent.info` |
| Decoder.TopOverlayCompose | src/utils/parse_torrent_verbose.rs:23-252 | Reading two top-level dictionaries without common keys in turn is reading their union. A failure on the first stays the failure of the union |
| Decoder.DecodeLoopIsOverlay | src/utils/parse_torrent_verbose.rs:23-252 | The top-level loop body, stopping at the first fatal entry, run over entries with distinct keys equals reading the dictionary they form |
| Decoder.DecodeOrderFree | src/utils/parse_torrent_verbose.rs:19-259 | The source's loop, started from `Torrent::default()` and run in any iteration order of the dictionary, gives `DecodeTorrent`'s result |
| Decoder.IterationOrderIrrelevant | src/utils/parse_torrent_verbose.rs:23-252 | Two iteration orders of one dictionary decode to the same result |
| DictLoops.FoldIsOverlay | src/utils/parse_torrent_verbose.rs:80-124 | A loop that cannot fail equals the overlay of the whole dictionary, when each step is the overlay of its entry and overlays of disjoint dictionaries compose |
| DictLoops.LoopIsOverlay | src/utils/parse_torrent_verbose.rs:23-252 | The same for a loop that stops at its first failure, when a failure on part of the dictionary is the failure of the whole |
| Bencode.EnumerationExists | src/utils/parse_torrent_verbose.rs:23 | Every dictionary has an iteration order: a sequence of entries with distinct keys that forms it |
| DecoderProperties.FatalConditions | src/utils/parse_torrent_verbose.rs:21-257 | Decoding succeeds exactly on a dictionary without a fatal `private` entry. A fatal entry fails with the offending integer |
| DecoderProperties.PrivateRule | src/utils/parse_torrent_verbose.rs:131-141 | `private` 0 gives `Some(0)` and 1 gives `Some(1)`. Any other integer fails with that integer. A non-integer or missing entry leaves the flag absent |
| DecoderProperties.UnknownTopKeyIgnored | src/utils/parse_torrent_verbose.rs:248-250 | Adding an unrecognised top-level key does not change the decoded result |
| DecoderProperties.UnknownInfoKeyIgnored | src/utils/parse_torrent_verbose.rs:168-170 | Adding an unrecognised `info` key does not change the decoded `info` |
| DecoderProperties.UnknownFileKeyIgnored | src/utils/parse_torrent_verbose.rs:118-122 | Adding an unrecognised file key does not change the decoded file |
| DecoderProperties.UnknownEntrySkipped | src/utils/parse_torrent_verbose.rs:248-250 | In the loop itself, an unrecognised entry is a no-op wherever the iteration meets it |
| DecoderProperties.NonDictInfoKeepsDefault | src/utils/parse_torrent_verbose.rs:19-27 | Without a dictionary under `info`, decoding succeeds and `info` is `TorrentInfo::default()` |
| DecoderProperties.UnrecognisedInfoIsFresh | src/utils/parse_torrent_verbose.rs:28-39 | An `info` dictionary with no recognised key decodes to the fresh record: all options absent, empty name, zero piece length |
| DecoderProperties.UnusableFileIsFresh | src/utils/parse_torrent_verbose.rs:75-79 | A file dictionary with no usable entry gives an empty path, zero length and no checksum |
| DecoderProperties.TextsAreTheByteStrings | src/utils/parse_torrent_verbose.rs:204-214 | A text list has one entry per byte-string item. A text is in it exactly when some byte-string item repairs to it |
| DecoderProperties.TextsKeepOrder | src/utils/parse_torrent_verbose.rs:205-212 | Text lists keep input order: the list of a concatenation is the concatenation of the lists |
| DecoderProperties.TextsOfByteStrings | src/utils/parse_torrent_verbose.rs:143-153 | A list of byte strings only is kept whole, item by item, in order |
| DecoderProperties.NodeShape | src/utils/parse_torrent_verbose.rs:184-194 | A `nodes` entry is kept exactly when it is a list of at least two elements, a byte string then an integer, and becomes that host and port |
| DecoderProperties.NodesFilter | src/utils/parse_torrent_verbose.rs:181-198 | `nodes` never grows, and holds exactly the nodes of its well-shaped entries |
| DecoderProperties.NodesKeepOrder | src/utils/parse_torrent_verbose.rs:183-196 | `nodes` keeps input order |
| DecoderProperties.LongNodeKept | src/utils/parse_torrent_verbose.rs:186-187 | A node entry with a third element is still a node |
| DecoderProperties.TiersFilter | src/utils/parse_torrent_verbose.rs:215-231 | `announce-list` has one tier per list entry. A tier is in it exactly when it is the byte strings of some list entry |
| DecoderProperties.TiersKeepOrder | src/utils/parse_torrent_verbose.rs:217-229 | `announce-list` keeps tier order |
| DecoderProperties.EmptyTierKept | src/utils/parse_torrent_verbose.rs:219-227 | A tier with no byte string is kept as an empty tier |
| DecoderProperties.FilesFilter | src/utils/parse_torrent_verbose.rs:70-129 | `files` has one file per dictionary entry. A file is in it exactly when some dictionary entry decodes to it |
| DecoderProperties.FilesKeepOrder | src/utils/parse_torrent_verbose.rs:72-128 | `files` keeps input order |
| DecoderProperties.FileScalarShapes | src/utils/parse_torrent_verbose.rs:75-117 | A file's length is its integer `length` entry, else 0. Its checksum is its byte-string `md5sum` entry, else absent |
| DecoderProperties.FilePathIsByteStrings | src/utils/parse_torrent_verbose.rs:85-98 | A file's path is the byte strings of its `path` list, in order |
| DecoderProperties.TopScalarShapes | src/utils/parse_torrent_verbose.rs:176-247 | `announce`, `encoding`, `comment` and `created by` are set only from byte strings, and `creation date` only from an integer. Otherwise they stay absent |
| DecoderProperties.InfoScalarShapes | src/utils/parse_torrent_verbose.rs:43-167 | `name`, `pieces`, `md5sum`, `root hash` and `source` are set only from byte strings, and `piece length` and `length` only from integers. Otherwise they keep the fresh record's value |
| DecoderProperties.TopListShapes | src/utils/parse_torrent_verbose.rs:26-231 | `nodes`, `httpseeds` and `announce-list` are set only from lists, through their filters. Otherwise the first two stay absent and the tier list keeps its default. A dictionary `info` is decoded from the fresh record, and any other `info` leaves the default |
| DecoderProperties.InfoListShapes | src/utils/parse_torrent_verbose.rs:70-155 | `files` and `path` are set only from lists, through their filters. Otherwise they stay absent |
| DecoderProperties.NoAnnounceListKeepsEmptyTiers | src/utils/parse_torrent_verbose.rs:19 | Without a list under `announce-list`, the tier list stays `Some([])` and `announce_urls` is empty |
| DecoderProperties.SingleFileWithoutTiers | src/utils/parse_torrent_verbose.rs:18-260 | A single-file torrent with `announce` and no tier list decodes its fields and has total size `length`. Its announce URL list is empty |
| DecoderProperties.DecodedAnnounceUrlsSucceed | src/models/torrent_file.rs:147-155 | `announce_urls` never fails on a successfully decoded torrent |
| DecoderProperties.LengthOnlyFile | src/utils/parse_torrent_verbose.rs:74-125 | A `files` entry holding only `length` is a file of that length, with an empty path and no checksum |
| DecoderProperties.TwoLengthsDecode | src/utils/parse_torrent_verbose.rs:72-125 | Two file dictionaries holding only `length` become two files with those lengths, in list order |
| DecoderProperties.MultiFileLengthsRead | src/utils/parse_torrent_verbose.rs:70-128 | A multi-file `info` with lengths 30 and 70 decodes to those two files, and `file_size` is 100 |
| DecoderProperties.DecodedFileSize | src/models/torrent_file.rs:125-139 | `file_size` of a decoded torrent: 0 without an `info` dictionary, else the `length` integer, else the sum over `files`, else 0 |
| Torrents.AccumulateLengths | src/models/torrent_file.rs:131-135 | The accumulation loop adds the structural sum of the file lengths to its start value |
| Torrents.FileSize | src/models/torrent_file.rs:125-139 | A present `length` is the size and `files` is ignored. Otherwise the sum of the file lengths, or 0 without files |
| Torrents.AnnounceUrls | src/models/torrent_file.rs:147-155 | Fails exactly when both sources are absent. With a tier list, the result has the total tier length and exactly the tiers' URLs, and `announce` is ignored. Otherwise it is the single `announce` URL |
| Torrents.AnnounceUrlsTierOrder | src/models/torrent_file.rs:148-149 | Tiers contribute their URLs in tier order |
| Torrents.FileSizeSplits | src/models/torrent_file.rs:128-137 | The size of two concatenated file lists is the sum of their sizes |
| Torrents.DefaultTorrentAccessors | src/models/torrent_file.rs:84-98 | The default torrent has no announce URL, not an error, and total size 0 |
| Torrents.MultiFileSizeExample | src/models/torrent_file.rs:128-137 | Files of 30 and 70 bytes without a single-file length total 100 |
| InfoHashes.FromBytes | src/models/info_hash.rs:18-23 | Exactly 20 bytes are copied byte for byte |
| InfoHashes.BytesOf | src/models/info_hash.rs:27-29 | The internal array has 20 bytes, and `from_bytes` of it gives the hash back |
| InfoHashes.FromSlice | src/models/info_hash.rs:71-78 | A 20-byte slice becomes the hash holding exactly those bytes |
| InfoHashes.FromArray | src/models/info_hash.rs:80-84 | A 20-byte array is wrapped unchanged, as `from_bytes` would |
| InfoHashes.TryFromVec | src/models/info_hash.rs:103-121 | Succeeds exactly on 20 bytes, holding those bytes. Fewer bytes fail exactly with `NotEnoughBytes`, more exactly with `TooManyBytes`, each with the count |
| InfoHashes.HexBytesAreHexText | src/models/info_hash.rs:54 | The bytes of a text are all hex digits exactly when its characters are. Such a text is its own byte string |
| InfoHashes.Bin2Hex | src/models/info_hash.rs:41 | Fails exactly when the buffer holds less than twice the input. Otherwise it gives twice as many lower-case ASCII hex digits, digit `j` having the value of the high or low half of byte `j/2` |
| InfoHashes.Hex2Bin | src/models/info_hash.rs:54 | Succeeds exactly on an even-length all-digit input whose half fits the buffer. Each output byte is the value of its two digits, high first |
| InfoHashes.DecodeBlock | src/models/info_hash.rs:54 | Two digits shifted into an 8-bit accumulator give their pair value. A byte that is not a digit gives none |
| InfoHashes.Hex2BinBlocks | src/models/info_hash.rs:54 | The block-by-block decoder with its two length checks equals `Hex2Bin` on every input and buffer size |
| InfoHashes.Display | src/models/info_hash.rs:38-44 | 40 lower-case hex characters. Character `j` is the high or low half of byte `j/2` |
| InfoHashes.ToHexString | src/models/info_hash.rs:31-35 | The hex string is the `Display` text, and parses back to the same hash |
| InfoHashes.FromStr | src/models/info_hash.rs:46-57 | A byte length other than 40 fails with `InvalidInputLength`. It succeeds exactly on 40 hex digits of either case, else fails with `InvalidInput`. Byte `i` is the value of digits `2i` and `2i+1` |
| InfoHashes.Serialize | src/models/info_hash.rs:123-130 | The serialised string is the `Display` text, and it parses back to the hash |
| InfoHashes.VisitStr | src/models/info_hash.rs:147-164 | Accepts exactly what `FromStr` accepts, with the same hash. A rejection quotes the input and says "a 40 character long string" exactly for a wrong byte length, "a hexadecimal string" otherwise |
| InfoHashes.DisplayFromStrRoundTrip | src/models/info_hash.rs:38-57 | Every hash survives formatting and parsing |
| InfoHashes.FromStrDisplayRoundTrip | src/models/info_hash.rs:38-57 | A valid 40-digit text parses and formats back to its lower-case form |
| InfoHashes.DisplayInjective | src/models/info_hash.rs:38-44 | Distinct hashes format to distinct texts |
| InfoHashes.CompareBytes | src/models/info_hash.rs:61 | The byte-array comparison says `Equal` exactly on equal arrays |
| InfoHashes.CompareReverse | src/models/info_hash.rs:59-63 | Swapping the operands reverses the comparison |
| InfoHashes.CompareTransitive | src/models/info_hash.rs:59-63 | The byte-array comparison is transitive |
| InfoHashes.CompareIsLexicographic | src/models/info_hash.rs:59-63 | The comparison says `Less` exactly when the first difference has the smaller byte on the left, or the left is a proper prefix |
| InfoHashes.Cmp | src/models/info_hash.rs:59-63 | `Equal` exactly on equal hashes, and `Less` exactly when the bytes are lexicographically smaller |
| InfoHashes.CmpReverse | src/models/info_hash.rs:59-63 | `b.cmp(a)` is `a.cmp(b)` reversed |
| InfoHashes.PartialCmp | src/models/info_hash.rs:65-69 | Always defined, with the same `Equal` and `Less` answers as `cmp` |
| InfoHashes.CmpTransitive | src/models/info_hash.rs:59-63 | The order on hashes is transitive |
| InfoHashes.CmpTotal | src/models/info_hash.rs:59-63 | Any two hashes are ordered one way, the other, or equal |
| InfoHashes.UpperCaseFsExample | src/models/info_hash.rs:182-187 | Forty upper-case `F`s parse to the all-255 hash |
| InfoHashes.LowerCaseFsExample | src/models/info_hash.rs:205-222 | The all-255 hash formats as forty lower-case `f`s, through `Display` and through `to_hex_string` |
| InfoHashes.SerdeFsExample | src/models/info_hash.rs:264-292 | The all-255 hash serialises to forty lower-case `f`s and deserialises from that text |
| InfoHashes.NonHexExample | src/models/info_hash.rs:189-194 | Forty `G`s are rejected as not hexadecimal |
| InfoHashes.WrongLengthExample | src/models/info_hash.rs:196-203 | Thirty-nine or forty-one `F`s are rejected by length |
| InfoHashes.ByteConstructorsExample | src/models/info_hash.rs:224-262 | Twenty 255 bytes as a slice, array or vector give the all-255 hash. Nineteen or twenty-one bytes are rejected as too few or too many |

## Left out

- `println!` diagnostics (src/utils/parse_torrent_verbose.rs:51, 119-121, 169, 249): output only, with no effect on the result.
- `calculate_info_hash_as_bytes` and `info_hash` (src/models/torrent_file.rs:107-122): these need the serde_bencode serialiser, SHA-1 and `utils::hex::from_bytes`, which are not part of this model.
- src/main.rs: command-line handling, file reading and printing.
- `String::from_utf8_lossy`: its byte-level repair is not modelled. It is the decoder's parameter `lossy`.
- Torrents.FileSize: does not model i64 overflow in `file_size += file.length`. The sum is over mathematical integers, so a sum beyond the i64 range is not wrapped or trapped.
- InfoHashes.FromBytes: the `assert_eq!` panic on a length other than 20 is a precondition. The source documents the panic as a caller error, and the length-checked constructor is `TryFromVec`.
- InfoHashes.FromSlice: like `FromBytes`, the length assertion is a precondition.
- `ConversionError`: the caller's `Location` and the formatted message text are left out. Only the error kind and the byte count are kept.
- The `binascii` source is not modelled line by line. `bin2hex` and `hex2bin` are written out from its behaviour: the two length checks, digits of either case in, lower case out.
- serde plumbing: the `Serializer` and `Deserializer` calls, `deserialize_str`, JSON, and the visitor's `expecting` text. Only the string-level mapping is modelled.
- The derived `Hash`, `Clone`, `Copy` and `Debug` traits: these are not behaviour of the core.

=== FILE: bencode.dfy ===
/** The untyped bencode tree (BEP 3) as the external parser hands it over:
    byte strings, 64-bit integers, lists and dictionaries keyed by byte
    strings. A dictionary is a hash map, so its iteration order is
    unspecified; `Enumerates` describes every order it may be visited in. */
module Bencode {

  type byte = b: int | 0 <= b < 0x100

  /** Rust's `i64`, the payload of a bencode integer. */
  type int64 = n: int | -0x8000_0000_0000_0000 <= n < 0x8000_0000_0000_0000

  datatype Value =
    | Bytes(b: seq<byte>)
    | Int(n: int64)
    | List(items: seq<Value>)
    | Dict(entries: Dictionary)

  /** A bencode dictionary, keyed by byte strings. */
  type Dictionary = map<seq<byte>, Value>

  /** The byte string of an ASCII text, as a dictionary key literal. */
  function Ascii(s: string): (r: seq<byte>)
    requires forall i | 0 <= i < |s| :: s[i] as int < 0x80
    ensures |r| == |s|
  {
    seq(|s|, i requires 0 <= i < |s| => s[i] as int)
  }

  /** One dictionary entry as the iteration yields it. */
  type Entry = (seq<byte>, Value)

  ghost predicate DistinctKeys(es: seq<Entry>) {
    forall i, j | 0 <= i < j < |es| :: es[i].0 != es[j].0
  }

  /** The dictionary whose entries are `es`. */
  function ToMap(es: seq<Entry>): (m: Dictionary)
    ensures forall i | 0 <= i < |es| :: es[i].0 in m
    ensures forall k | k in m :: exists i :: 0 <= i < |es| && es[i].0 == k
  {
    if |es| == 0 then map[]
    else
      var rest := ToMap(es[1..]);
      assert forall k | k in rest :: exists i :: 0 <= i < |es| && es[i].0 == k by {
        forall k | k in rest
          ensures exists i :: 0 <= i < |es| && es[i].0 == k
        {
          var j :| 0 <= j < |es[1..]| && es[1..][j].0 == k;
          assert es[j + 1].0 == k;
        }
      }
      rest[es[0].0 := es[0].1]
  }

  /** `es` is one possible iteration order of the dictionary `d`: every
      entry of `d` exactly once. */
  ghost predicate Enumerates(es: seq<Entry>, d: Dictionary) {
    DistinctKeys(es) && ToMap(es) == d
  }

  /** Splitting off the first entry of a distinct enumeration leaves a
      distinct enumeration that does not mention its key. */
  lemma DistinctTail(es: seq<Entry>)
    requires |es| > 0 && DistinctKeys(es)
    ensures DistinctKeys(es[1..])
    ensures es[0].0 !in ToMap(es[1..])
  {
    forall k | k in ToMap(es[1..])
      ensures k != es[0].0
    {
      var j :| 0 <= j < |es[1..]| && es[1..][j].0 == k;
      assert es[j + 1].0 == k;
    }
  }

  /** Putting a fresh key in front of a distinct enumeration keeps it distinct. */
  lemma ConsDistinct(k: seq<byte>, v: Value, es: seq<Entry>)
    requires DistinctKeys(es) && k !in ToMap(es)
    ensures DistinctKeys([(k, v)] + es)
    ensures ToMap([(k, v)] + es) == ToMap(es)[k := v]
  {
    var es' := [(k, v)] + es;
    assert es'[1..] == es;
    forall i, j | 0 <= i < j < |es'|
      ensures es'[i].0 != es'[j].0
    {
      assert es'[j] == es[j - 1];
      if i > 0 {
        assert es'[i] == es[i - 1];
      }
    }
  }

  /** Taking a key out of a dictionary shrinks it, and putting the entry
      back restores it. */
  lemma RemoveRestore(d: Dictionary, k: seq<byte>)
    requires k in d
    ensures |d - {k}| < |d|
    ensures (d - {k})[k := d[k]] == d
  {
    assert (d - {k}).Keys == d.Keys - {k};
  }

  /** Every dictionary can be iterated: the enumerations quantified over in
      the decoder's order-independence lemmas exist. */
  lemma {:induction false} EnumerationExists(d: Dictionary)
    ensures exists es :: Enumerates(es, d)
    decreases |d|
  {
    if |d| == 0 {
      assert Enumerates([], d);
    } else {
      var k :| k in d;
      var rest := d - {k};
      RemoveRestore(d, k);
      EnumerationExists(rest);
      var es: seq<Entry> :| Enumerates(es, rest);
      ConsDistinct(k, d[k], es);
      assert Enumerates([(k, d[k])] + es, d);
    }
  }
}

=== FILE: decode_properties.dfy ===
/** What `decode_torrent` promises about its result: the two fatal
    conditions, the `private` rule, unknown keys, the starting records, the
    list filters, the scalar shape checks, and how the decoded torrent
    behaves under `file_size` and `announce_urls`. */
module DecoderProperties {
  import opened Results
  import opened Bencode
  import opened Seqs
  import opened Torrents
  import opened Decoder

  predicate IsByteString(v: Value) {
    v.Bytes?
  }

  predicate IsList(v: Value) {
    v.List?
  }

  predicate IsDict(v: Value) {
    v.Dict?
  }

  // ---------------------------------------------------------------------
  // Fatal conditions

  /** Only a dictionary top level can succeed, and it fails exactly through
      the `private` rule, with the offending integer. */
  lemma FatalConditions(v: Value, lossy: Lossy)
    ensures DecodeTorrent(v, lossy).Success? <==> v.Dict? && !FatalPrivate(v.entries)
    ensures v.Dict? && FatalPrivate(v.entries) ==>
      DecodeTorrent(v, lossy) == Failure(UnexpectedPrivate(v.entries[InfoKey].entries[PrivateKey].n))
  {
  }

  /** The `private` entry of an `info` dictionary: integers 0 and 1 are
      stored, any other integer is fatal, and any other shape, or no entry,
      leaves the flag absent. */
  lemma PrivateRule(d: Dictionary, lossy: Lossy)
    ensures HasInt(d, PrivateKey) && d[PrivateKey].n == 0 ==>
      DecodeInfo(d, lossy).Success? && DecodeInfo(d, lossy).value.private == Some(0)
    ensures HasInt(d, PrivateKey) && d[PrivateKey].n == 1 ==>
      DecodeInfo(d, lossy).Success? && DecodeInfo(d, lossy).value.private == Some(1)
    ensures HasInt(d, PrivateKey) && d[PrivateKey].n != 0 && d[PrivateKey].n != 1 ==>
      DecodeInfo(d, lossy) == Failure(UnexpectedPrivate(d[PrivateKey].n))
    ensures !HasInt(d, PrivateKey) ==>
      DecodeInfo(d, lossy).Success? && DecodeInfo(d, lossy).value.private == None
  {
  }

  // ---------------------------------------------------------------------
  // Unknown keys

  /** An unrecognised top-level key changes nothing. */
  lemma UnknownTopKeyIgnored(d: Dictionary, k: seq<byte>, v: Value, lossy: Lossy)
    requires TopFieldOf(k) == SkippedTopKey
    ensures DecodeTorrent(Dict(d[k := v]), lossy) == DecodeTorrent(Dict(d), lossy)
  {
    var d' := d[k := v];
    assert InfoKey in d' <==> InfoKey in d;
    if InfoKey in d {
      assert d'[InfoKey] == d[InfoKey];
    }
    assert OverlayTopFields(DefaultTorrent, d', lossy) == OverlayTopFields(DefaultTorrent, d, lossy);
  }

  /** An unrecognised `info` key changes nothing. */
  lemma UnknownInfoKeyIgnored(d: Dictionary, k: seq<byte>, v: Value, lossy: Lossy)
    requires InfoFieldOf(k) == SkippedInfoKey
    ensures DecodeInfo(d[k := v], lossy) == DecodeInfo(d, lossy)
  {
    var d' := d[k := v];
    assert PrivateAt(d', None) == PrivateAt(d, None);
    assert OverlayInfoFields(FreshInfo, d', lossy) == OverlayInfoFields(FreshInfo, d, lossy);
  }

  /** An unrecognised file key changes nothing. */
  lemma UnknownFileKeyIgnored(d: Dictionary, k: seq<byte>, v: Value, lossy: Lossy)
    requires FileFieldOf(k) == SkippedFileKey
    ensures DecodeFile(d[k := v], lossy) == DecodeFile(d, lossy)
  {
  }

  /** In the loop itself, an unrecognised entry is a no-op wherever the
      iteration meets it. */
  lemma {:induction false} UnknownEntrySkipped(t: Torrent, es1: seq<Entry>, k: seq<byte>, v: Value, es2: seq<Entry>, lossy: Lossy)
    requires TopFieldOf(k) == SkippedTopKey
    ensures DecodeLoop(t, es1 + [(k, v)] + es2, lossy) == DecodeLoop(t, es1 + es2, lossy)
    decreases |es1|
  {
    if |es1| == 0 {
      assert es1 + [(k, v)] + es2 == [(k, v)] + es2;
      assert ([(k, v)] + es2)[1..] == es2;
      assert es1 + es2 == es2;
    } else {
      assert (es1 + [(k, v)] + es2)[0] == es1[0];
      assert (es1 + [(k, v)] + es2)[1..] == es1[1..] + [(k, v)] + es2;
      assert (es1 + es2)[0] == es1[0];
      assert (es1 + es2)[1..] == es1[1..] + es2;
      var step := StepTop(t, es1[0].0, es1[0].1, lossy);
      if step.Success? {
        UnknownEntrySkipped(step.value, es1[1..], k, v, es2, lossy);
      }
    }
  }

  // ---------------------------------------------------------------------
  // Starting records

  /** Without a dictionary under `info`, the decoded `info` is
      `TorrentInfo::default()`, and decoding cannot fail. */
  lemma NonDictInfoKeepsDefault(d: Dictionary, lossy: Lossy)
    requires !HasDict(d, InfoKey)
    ensures DecodeTorrent(Dict(d), lossy).Success?
    ensures DecodeTorrent(Dict(d), lossy).value.info == DefaultInfo
  {
  }

  /** An `info` dictionary with no recognised key decodes to the fresh
      record: everything absent, empty name, zero piece length. */
  lemma UnrecognisedInfoIsFresh(d: Dictionary, lossy: Lossy)
    requires forall k | k in d :: InfoFieldOf(k) == SkippedInfoKey
    ensures DecodeInfo(d, lossy) == Success(FreshInfo)
  {
    InfoKeysDispatch();
    assert PrivateKey !in d;
    assert OverlayInfoFields(FreshInfo, d, lossy) == FreshInfo;
  }

  /** A file dictionary with no usable entry decodes to an empty path, zero
      length and no checksum. */
  lemma UnusableFileIsFresh(d: Dictionary, lossy: Lossy)
    requires !HasList(d, PathKey) && !HasInt(d, LengthKey) && !HasBytes(d, Md5sumKey)
    ensures DecodeFile(d, lossy) == TorrentFile([], 0, None)
  {
  }

  // ---------------------------------------------------------------------
  // List filters

  /** Text lists (`path`, `httpseeds`, an announce tier): exactly the byte
      strings, as text, one per byte string. */
  lemma TextsAreTheByteStrings(items: seq<Value>, lossy: Lossy)
    ensures |Texts(items, lossy)| == Count(items, IsByteString)
    ensures forall u :: u in Texts(items, lossy) <==>
      exists i :: 0 <= i < |items| && items[i].Bytes? && lossy(items[i].b) == u
  {
    var f := v => TextOf(v, lossy);
    CountSomeIsCount(items, f, IsByteString);
    forall u | exists i :: 0 <= i < |items| && items[i].Bytes? && lossy(items[i].b) == u
      ensures u in Texts(items, lossy)
    {
      var i :| 0 <= i < |items| && items[i].Bytes? && lossy(items[i].b) == u;
      KeepComplete(items, f, i);
    }
  }

  /** Text lists keep the input order. */
  lemma TextsKeepOrder(a: seq<Value>, b: seq<Value>, lossy: Lossy)
    ensures Texts(a + b, lossy) == Texts(a, lossy) + Texts(b, lossy)
  {
    KeepAppend(a, b, v => TextOf(v, lossy));
  }

  /** A list of byte strings only is kept whole, in order. */
  lemma TextsOfByteStrings(items: seq<Value>, lossy: Lossy)
    requires forall i | 0 <= i < |items| :: items[i].Bytes?
    ensures |Texts(items, lossy)| == |items|
    ensures forall i | 0 <= i < |items| :: Texts(items, lossy)[i] == lossy(items[i].b)
  {
    KeepAll(items, v => TextOf(v, lossy));
  }

  /** A `nodes` entry is kept exactly when it is a list of at least two
      elements, a byte string then an integer; more elements do not matter. */
  lemma NodeShape(v: Value, lossy: Lossy)
    ensures NodeOf(v, lossy).Some? <==>
      v.List? && |v.items| >= 2 && v.items[0].Bytes? && v.items[1].Int?
    ensures NodeOf(v, lossy).Some? ==>
      NodeOf(v, lossy).value == TorrentNode(lossy(v.items[0].b), v.items[1].n)
  {
  }

  /** `nodes` keeps exactly its well-shaped entries, in order, and never
      grows. */
  lemma NodesFilter(items: seq<Value>, lossy: Lossy)
    ensures |Nodes(items, lossy)| <= |items|
    ensures forall n :: n in Nodes(items, lossy) <==>
      exists i :: 0 <= i < |items| && NodeOf(items[i], lossy) == Some(n)
  {
    var f := v => NodeOf(v, lossy);
    forall n | exists i :: 0 <= i < |items| && NodeOf(items[i], lossy) == Some(n)
      ensures n in Nodes(items, lossy)
    {
      var i :| 0 <= i < |items| && NodeOf(items[i], lossy) == Some(n);
      KeepComplete(items, f, i);
    }
  }

  lemma NodesKeepOrder(a: seq<Value>, b: seq<Value>, lossy: Lossy)
    ensures Nodes(a + b, lossy) == Nodes(a, lossy) + Nodes(b, lossy)
  {
    KeepAppend(a, b, v => NodeOf(v, lossy));
  }

  /** A node entry with a third element is still a node. */
  lemma LongNodeKept(host: seq<byte>, port: int64, extra: Value, lossy: Lossy)
    ensures Nodes([List([Bytes(host), Int(port), extra])], lossy) == [TorrentNode(lossy(host), port)]
  {
  }

  /** `announce-list` keeps one tier per list entry, drops the rest, and
      filters each tier to its byte strings. */
  lemma TiersFilter(items: seq<Value>, lossy: Lossy)
    ensures |Tiers(items, lossy)| == Count(items, IsList)
    ensures forall tier :: tier in Tiers(items, lossy) <==>
      exists i :: 0 <= i < |items| && items[i].List? && Texts(items[i].items, lossy) == tier
  {
    var f := v => TierOf(v, lossy);
    CountSomeIsCount(items, f, IsList);
    forall tier | exists i :: 0 <= i < |items| && items[i].List? && Texts(items[i].items, lossy) == tier
      ensures tier in Tiers(items, lossy)
    {
      var i :| 0 <= i < |items| && items[i].List? && Texts(items[i].items, lossy) == tier;
      KeepComplete(items, f, i);
    }
  }

  lemma TiersKeepOrder(a: seq<Value>, b: seq<Value>, lossy: Lossy)
    ensures Tiers(a + b, lossy) == Tiers(a, lossy) + Tiers(b, lossy)
  {
    KeepAppend(a, b, v => TierOf(v, lossy));
  }

  /** A tier with no byte string is kept, empty. */
  lemma EmptyTierKept(xs: seq<Value>, lossy: Lossy)
    requires forall i | 0 <= i < |xs| :: !xs[i].Bytes?
    ensures Tiers([List(xs)], lossy) == [[]]
  {
    KeepNone(xs, v => TextOf(v, lossy));
  }

  /** `files` has one file per dictionary entry, whatever keys it holds,
      and drops every other entry. */
  lemma FilesFilter(items: seq<Value>, lossy: Lossy)
    ensures |Files(items, lossy)| == Count(items, IsDict)
    ensures forall f :: f in Files(items, lossy) <==>
      exists i :: 0 <= i < |items| && items[i].Dict? && DecodeFile(items[i].entries, lossy) == f
  {
    var g := v => FileOf(v, lossy);
    CountSomeIsCount(items, g, IsDict);
    forall f | exists i :: 0 <= i < |items| && items[i].Dict? && DecodeFile(items[i].entries, lossy) == f
      ensures f in Files(items, lossy)
    {
      var i :| 0 <= i < |items| && items[i].Dict? && DecodeFile(items[i].entries, lossy) == f;
      KeepComplete(items, g, i);
    }
  }

  lemma FilesKeepOrder(a: seq<Value>, b: seq<Value>, lossy: Lossy)
    ensures Files(a + b, lossy) == Files(a, lossy) + Files(b, lossy)
  {
    KeepAppend(a, b, v => FileOf(v, lossy));
  }

  /** A file's `length` is its integer `length` entry, and 0 without one; its
      checksum is its byte-string `md5sum` entry, and absent without one. */
  lemma FileScalarShapes(d: Dictionary, lossy: Lossy)
    ensures DecodeFile(d, lossy).length == (if HasInt(d, LengthKey) then d[LengthKey].n else 0)
    ensures DecodeFile(d, lossy).md5sum == (if HasBytes(d, Md5sumKey) then Some(lossy(d[Md5sumKey].b)) else None)
  {
  }

  /** A file's path is the byte strings of its `path` list. */
  lemma FilePathIsByteStrings(d: Dictionary, lossy: Lossy)
    requires HasList(d, PathKey)
    ensures DecodeFile(d, lossy).path == Texts(d[PathKey].items, lossy)
  {
  }

  // ---------------------------------------------------------------------
  // Scalar shape checks

  /** Top-level text fields are set only from byte strings and the creation
      date only from an integer; otherwise they stay absent. */
  lemma TopScalarShapes(d: Dictionary, lossy: Lossy)
    requires !FatalPrivate(d)
    ensures var t := DecodeTorrent(Dict(d), lossy).value;
      && t.announce == (if HasBytes(d, AnnounceKey) then Some(lossy(d[AnnounceKey].b)) else None)
      && t.encoding == (if HasBytes(d, EncodingKey) then Some(lossy(d[EncodingKey].b)) else None)
      && t.comment == (if HasBytes(d, CommentKey) then Some(lossy(d[CommentKey].b)) else None)
      && t.createdBy == (if HasBytes(d, CreatedByKey) then Some(lossy(d[CreatedByKey].b)) else None)
      && t.creationDate == (if HasInt(d, CreationDateKey) then Some(d[CreationDateKey].n) else None)
  {
  }

  /** `info` text fields are set only from byte strings, `piece length`
      and `length` only from integers; otherwise they keep the fresh
      record's value. */
  lemma InfoScalarShapes(d: Dictionary, lossy: Lossy)
    requires !InvalidPrivate(d)
    ensures var info := DecodeInfo(d, lossy).value;
      && info.name == (if HasBytes(d, NameKey) then lossy(d[NameKey].b) else "")
      && info.pieces == (if HasBytes(d, PiecesKey) then Some(d[PiecesKey].b) else None)
      && info.md5sum == (if HasBytes(d, Md5sumKey) then Some(lossy(d[Md5sumKey].b)) else None)
      && info.rootHash == (if HasBytes(d, RootHashKey) then Some(lossy(d[RootHashKey].b)) else None)
      && info.source == (if HasBytes(d, SourceKey) then Some(lossy(d[SourceKey].b)) else None)
      && info.pieceLength == (if HasInt(d, PieceLengthKey) then d[PieceLengthKey].n else 0)
      && info.length == (if HasInt(d, LengthKey) then Some(d[LengthKey].n) else None)
  {
  }

  /** Top-level list fields are set only from lists, filtered entry by
      entry; otherwise `nodes` and `httpseeds` stay absent and the tier list
      keeps its default. A dictionary `info` is decoded from the fresh
      record; any other `info` leaves the default. */
  lemma TopListShapes(d: Dictionary, lossy: Lossy)
    requires !FatalPrivate(d)
    ensures var t := DecodeTorrent(Dict(d), lossy).value;
      && t.nodes == (if HasList(d, NodesKey) then Some(Nodes(d[NodesKey].items, lossy)) else None)
      && t.httpseeds == (if HasList(d, HttpseedsKey) then Some(Texts(d[HttpseedsKey].items, lossy)) else None)
      && t.announceList == (if HasList(d, AnnounceListKey) then Some(Tiers(d[AnnounceListKey].items, lossy)) else Some([]))
      && t.info == (if HasDict(d, InfoKey) then DecodeInfo(d[InfoKey].entries, lossy).value else DefaultInfo)
  {
  }

  /** `info` list fields are set only from lists, filtered entry by entry;
      otherwise they stay absent. */
  lemma InfoListShapes(d: Dictionary, lossy: Lossy)
    requires !InvalidPrivate(d)
    ensures var info := DecodeInfo(d, lossy).value;
      && info.files == (if HasList(d, FilesKey) then Some(Files(d[FilesKey].items, lossy)) else None)
      && info.path == (if HasList(d, PathKey) then Some(Texts(d[PathKey].items, lossy)) else None)
  {
  }

  // ---------------------------------------------------------------------
  // The accessors on a decoded torrent

  /** Without a usable `announce-list`, the decoded torrent keeps the
      default empty tier list, so `announce_urls` returns no URL, even when
      `announce` is present. */
  lemma NoAnnounceListKeepsEmptyTiers(d: Dictionary, lossy: Lossy)
    requires !HasList(d, AnnounceListKey) && !FatalPrivate(d)
    ensures DecodeTorrent(Dict(d), lossy).value.announceList == Some([])
    ensures AnnounceUrls(DecodeTorrent(Dict(d), lossy).value) == Success([])
  {
  }

  /** A single-file torrent with an `announce` URL and no `announce-list`:
      the fields are read, the total size is the `length`, and, because the
      tier list stays at its default, `announce_urls` is empty rather than
      the `announce` URL. */
  lemma SingleFileWithoutTiers(name: seq<byte>, url: seq<byte>, lossy: Lossy)
    ensures var info := map[NameKey := Bytes(name), PieceLengthKey := Int(16384), LengthKey := Int(5)];
      var r := DecodeTorrent(Dict(map[InfoKey := Dict(info), AnnounceKey := Bytes(url)]), lossy);
      && r.Success?
      && r.value.info.name == lossy(name)
      && r.value.info.pieceLength == 16384
      && r.value.info.length == Some(5)
      && r.value.announce == Some(lossy(url))
      && r.value.announceList == Some([])
      && FileSize(r.value) == 5
      && AnnounceUrls(r.value) == Success([])
  {
    KeyHeads();
  }

  /** A file dictionary holding only `length` is a file of that length. */
  lemma LengthOnlyFile(a: int64, lossy: Lossy)
    ensures FileOf(Dict(map[LengthKey := Int(a)]), lossy) == Some(FreshFile.(length := a))
  {
  }

  /** Two file dictionaries holding only `length` decode to two files with
      those lengths, in order. */
  lemma TwoLengthsDecode(a: int64, b: int64, lossy: Lossy)
    ensures Files([Dict(map[LengthKey := Int(a)]), Dict(map[LengthKey := Int(b)])], lossy)
      == [FreshFile.(length := a), FreshFile.(length := b)]
  {
    var files := [Dict(map[LengthKey := Int(a)]), Dict(map[LengthKey := Int(b)])];
    LengthOnlyFile(a, lossy);
    LengthOnlyFile(b, lossy);
    assert files[1..][1..] == [];
    assert Keep(files[1..], v => FileOf(v, lossy)) == [FreshFile.(length := b)];
  }

  /** A multi-file document: each file dictionary's `length` is read, and
      `file_size` is their sum. */
  lemma MultiFileLengthsRead(lossy: Lossy)
    ensures var files := [Dict(map[LengthKey := Int(30)]), Dict(map[LengthKey := Int(70)])];
      var r := DecodeTorrent(Dict(map[InfoKey := Dict(map[FilesKey := List(files)])]), lossy);
      && r.Success?
      && r.value.info.files == Some([FreshFile.(length := 30), FreshFile.(length := 70)])
      && FileSize(r.value) == 100
  {
    var files := [Dict(map[LengthKey := Int(30)]), Dict(map[LengthKey := Int(70)])];
    var info := map[FilesKey := List(files)];
    var decoded := [FreshFile.(length := 30), FreshFile.(length := 70)];
    assert FilesKey != PrivateKey && FilesKey != LengthKey by {
      KeyHeads();
    }
    TwoLengthsDecode(30, 70, lossy);
    assert SumLengths(decoded) == 100 by {
      assert decoded[1..] == [decoded[1]] && [decoded[1]][1..] == [];
      assert SumLengths([decoded[1]]) == 70;
    }
    InfoListShapes(info, lossy);
    DecodedFileSize(map[InfoKey := Dict(info)], lossy);
  }

  /** `announce_urls` never fails on a decoded torrent: the tier list is
      always present. */
  lemma DecodedAnnounceUrlsSucceed(v: Value, lossy: Lossy)
    requires DecodeTorrent(v, lossy).Success?
    ensures DecodeTorrent(v, lossy).value.announceList.Some?
    ensures AnnounceUrls(DecodeTorrent(v, lossy).value).Success?
  {
  }

  /** `file_size` of a decoded torrent: zero without an `info` dictionary;
      otherwise the `length` integer, else the sum over `files`, else zero. */
  lemma DecodedFileSize(d: Dictionary, lossy: Lossy)
    requires !FatalPrivate(d)
    ensures !HasDict(d, InfoKey) ==> FileSize(DecodeTorrent(Dict(d), lossy).value) == 0
    ensures HasDict(d, InfoKey) && HasInt(d[InfoKey].entries, LengthKey) ==>
      FileSize(DecodeTorrent(Dict(d), lossy).value) == d[InfoKey].entries[LengthKey].n
    ensures HasDict(d, InfoKey) && !HasInt(d[InfoKey].entries, LengthKey) && HasList(d[InfoKey].entries, FilesKey) ==>
      FileSize(DecodeTorrent(Dict(d), lossy).value) == SumLengths(Files(d[InfoKey].entries[FilesKey].items, lossy))
    ensures HasDict(d, InfoKey) && !HasInt(d[InfoKey].entries, LengthKey) && !HasList(d[InfoKey].entries, FilesKey) ==>
      FileSize(DecodeTorrent(Dict(d), lossy).value) == 0
  {
  }
}

=== FILE: decode_torrent.dfy ===
/** The tolerant decoder `decode_torrent`: it walks an untyped bencode tree
    and fills a typed `Torrent`.

    The tolerance policy is the same at every level. A recognised key whose
    value has the expected shape sets its own field. A recognised key with
    the wrong shape, or an unrecognised key, leaves the record unchanged.
    List entries of the wrong shape are dropped. Exactly two conditions are
    fatal: a top level that is not a dictionary, and an integer `private`
    flag other than 0 or 1. The source's panics become `Failure` values.

    Each dictionary level has two definitions:
    - a loop (`FileLoop`, `InfoLoop`, `DecodeLoop`) that visits the entries
      in a given order and dispatches each key the way the source's match
      arms do (`StepFile`, `StepInfo`, `StepTop`);
    - an order-free overlay (`OverlayFile`, `OverlayInfo`, `OverlayTop`) that
      looks every recognised key up in the dictionary.
    The lemmas at the end of this module prove that the loop and the overlay
    agree for every iteration order of the hash map. Where a loop meets a
    nested dictionary it decodes it through the nested overlay, which the
    lemma for that level justifies. */
module Decoder {
  import opened Results
  import opened Bencode
  import opened Seqs
  import opened Torrents
  import opened DictLoops

  /** `String::from_utf8_lossy`, which repairs invalid UTF-8. The decoder is
      parametric in it. Keys are compared as raw bytes against ASCII
      literals. The repaired text equals an ASCII literal exactly when the
      bytes equal that literal, so this comparison matches the source's. */
  type Lossy = seq<byte> -> string

  /** The shape of a top level that is not a dictionary. */
  datatype Shape = ByteStringShape | IntegerShape | ListShape

  /** The two fatal conditions: the source's four `panic!`s. */
  datatype DecodeError =
    | UnexpectedTopLevel(shape: Shape)
    | UnexpectedPrivate(value: int64)

  // Keys of the top-level dictionary.
  const InfoKey: seq<byte> := [0x69, 0x6e, 0x66, 0x6f]  // "info"
  const AnnounceKey: seq<byte> := [0x61, 0x6e, 0x6e, 0x6f, 0x75, 0x6e, 0x63, 0x65]  // "announce"
  const NodesKey: seq<byte> := [0x6e, 0x6f, 0x64, 0x65, 0x73]  // "nodes"
  const EncodingKey: seq<byte> := [0x65, 0x6e, 0x63, 0x6f, 0x64, 0x69, 0x6e, 0x67]  // "encoding"
  const HttpseedsKey: seq<byte> := [0x68, 0x74, 0x74, 0x70, 0x73, 0x65, 0x65, 0x64, 0x73]  // "httpseeds"
  const AnnounceListKey: seq<byte> := [0x61, 0x6e, 0x6e, 0x6f, 0x75, 0x6e, 0x63, 0x65, 0x2d, 0x6c, 0x69, 0x73, 0x74]  // "announce-list"
  const CreationDateKey: seq<byte> := [0x63, 0x72, 0x65, 0x61, 0x74, 0x69, 0x6f, 0x6e, 0x20, 0x64, 0x61, 0x74, 0x65]  // "creation date"
  const CommentKey: seq<byte> := [0x63, 0x6f, 0x6d, 0x6d, 0x65, 0x6e, 0x74]  // "comment"
  const CreatedByKey: seq<byte> := [0x63, 0x72, 0x65, 0x61, 0x74, 0x65, 0x64, 0x20, 0x62, 0x79]  // "created by"

  // Keys of the `info` dictionary; `md5sum`, `length` and `path` also
  // appear in a file dictionary.
  const NameKey: seq<byte> := [0x6e, 0x61, 0x6d, 0x65]  // "name"
  const PiecesKey: seq<byte> := [0x70, 0x69, 0x65, 0x63, 0x65, 0x73]  // "pieces"
  const PieceLengthKey: seq<byte> := [0x70, 0x69, 0x65, 0x63, 0x65, 0x20, 0x6c, 0x65, 0x6e, 0x67, 0x74, 0x68]  // "piece length"
  const Md5sumKey: seq<byte> := [0x6d, 0x64, 0x35, 0x73, 0x75, 0x6d]  // "md5sum"
  const LengthKey: seq<byte> := [0x6c, 0x65, 0x6e, 0x67, 0x74, 0x68]  // "length"
  const FilesKey: seq<byte> := [0x66, 0x69, 0x6c, 0x65, 0x73]  // "files"
  const PrivateKey: seq<byte> := [0x70, 0x72, 0x69, 0x76, 0x61, 0x74, 0x65]  // "private"
  const PathKey: seq<byte> := [0x70, 0x61, 0x74, 0x68]  // "path"
  const RootHashKey: seq<byte> := [0x72, 0x6f, 0x6f, 0x74, 0x20, 0x68, 0x61, 0x73, 0x68]  // "root hash"
  const SourceKey: seq<byte> := [0x73, 0x6f, 0x75, 0x72, 0x63, 0x65]  // "source"

  /** Each key's length and first byte. No two recognised keys share both,
      so the keys are pairwise distinct. */
  lemma KeyHeads()
    ensures |InfoKey| == 4 && InfoKey[0] == 'i' as int
    ensures |AnnounceKey| == 8 && AnnounceKey[0] == 'a' as int
    ensures |NodesKey| == 5 && NodesKey[0] == 'n' as int
    ensures |EncodingKey| == 8 && EncodingKey[0] == 'e' as int
    ensures |HttpseedsKey| == 9 && HttpseedsKey[0] == 'h' as int
    ensures |AnnounceListKey| == 13 && AnnounceListKey[0] == 'a' as int
    ensures |CreationDateKey| == 13 && CreationDateKey[0] == 'c' as int
    ensures |CommentKey| == 7 && CommentKey[0] == 'c' as int
    ensures |CreatedByKey| == 10 && CreatedByKey[0] == 'c' as int
    ensures |NameKey| == 4 && NameKey[0] == 'n' as int
    ensures |PiecesKey| == 6 && PiecesKey[0] == 'p' as int
    ensures |PieceLengthKey| == 12 && PieceLengthKey[0] == 'p' as int
    ensures |Md5sumKey| == 6 && Md5sumKey[0] == 'm' as int
    ensures |LengthKey| == 6 && LengthKey[0] == 'l' as int
    ensures |FilesKey| == 5 && FilesKey[0] == 'f' as int
    ensures |PrivateKey| == 7 && PrivateKey[0] == 'p' as int
    ensures |PathKey| == 4 && PathKey[0] == 'p' as int
    ensures |RootHashKey| == 9 && RootHashKey[0] == 'r' as int
    ensures |SourceKey| == 6 && SourceKey[0] == 's' as int
  {
  }

  /** The byte literals above spell the key names the source matches on. */
  lemma TopKeysSpellNames()
    ensures InfoKey == Ascii("info") && AnnounceKey == Ascii("announce")
    ensures NodesKey == Ascii("nodes") && EncodingKey == Ascii("encoding")
    ensures HttpseedsKey == Ascii("httpseeds") && AnnounceListKey == Ascii("announce-list")
    ensures CreationDateKey == Ascii("creation date") && CommentKey == Ascii("comment")
    ensures CreatedByKey == Ascii("created by")
  {
  }

  lemma InfoKeysSpellNames()
    ensures NameKey == Ascii("name") && PiecesKey == Ascii("pieces")
    ensures PieceLengthKey == Ascii("piece length") && Md5sumKey == Ascii("md5sum")
    ensures LengthKey == Ascii("length") && FilesKey == Ascii("files")
    ensures PrivateKey == Ascii("private") && PathKey == Ascii("path")
    ensures RootHashKey == Ascii("root hash") && SourceKey == Ascii("source")
  {
  }

  /** The arms of the top-level `match`. */
  datatype TopField =
    | Info | Announce | NodeList | Encoding | HttpSeeds | AnnounceList
    | CreationDate | Comment | CreatedBy | SkippedTopKey

  /** The arms of the `info` `match`. */
  datatype InfoField =
    | Name | Pieces | PieceLength | InfoMd5sum | InfoLength | FileList
    | Private | InfoPath | RootHash | Source | SkippedInfoKey

  /** The arms of the file `match`. */
  datatype FileField = FilePath | FileLength | FileMd5sum | SkippedFileKey

  function TopFieldOf(key: seq<byte>): TopField {
    if key == InfoKey then Info
    else if key == AnnounceKey then Announce
    else if key == NodesKey then NodeList
    else if key == EncodingKey then Encoding
    else if key == HttpseedsKey then HttpSeeds
    else if key == AnnounceListKey then AnnounceList
    else if key == CreationDateKey then CreationDate
    else if key == CommentKey then Comment
    else if key == CreatedByKey then CreatedBy
    else SkippedTopKey
  }

  function InfoFieldOf(key: seq<byte>): InfoField {
    if key == NameKey then Name
    else if key == PiecesKey then Pieces
    else if key == PieceLengthKey then PieceLength
    else if key == Md5sumKey then InfoMd5sum
    else if key == LengthKey then InfoLength
    else if key == FilesKey then FileList
    else if key == PrivateKey then Private
    else if key == PathKey then InfoPath
    else if key == RootHashKey then RootHash
    else if key == SourceKey then Source
    else SkippedInfoKey
  }

  function FileFieldOf(key: seq<byte>): FileField {
    if key == PathKey then FilePath
    else if key == LengthKey then FileLength
    else if key == Md5sumKey then FileMd5sum
    else SkippedFileKey
  }

  /** Every recognised key reaches its own arm: the key literals are distinct. */
  lemma TopKeysDispatch()
    ensures TopFieldOf(InfoKey) == Info && TopFieldOf(AnnounceKey) == Announce
    ensures TopFieldOf(NodesKey) == NodeList && TopFieldOf(EncodingKey) == Encoding
    ensures TopFieldOf(HttpseedsKey) == HttpSeeds && TopFieldOf(AnnounceListKey) == AnnounceList
    ensures TopFieldOf(CreationDateKey) == CreationDate && TopFieldOf(CommentKey) == Comment
    ensures TopFieldOf(CreatedByKey) == CreatedBy
  {
    KeyHeads();
  }

  lemma InfoKeysDispatch()
    ensures InfoFieldOf(NameKey) == Name && InfoFieldOf(PiecesKey) == Pieces
    ensures InfoFieldOf(PieceLengthKey) == PieceLength && InfoFieldOf(Md5sumKey) == InfoMd5sum
    ensures InfoFieldOf(LengthKey) == InfoLength && InfoFieldOf(FilesKey) == FileList
    ensures InfoFieldOf(PrivateKey) == Private && InfoFieldOf(PathKey) == InfoPath
    ensures InfoFieldOf(RootHashKey) == RootHash && InfoFieldOf(SourceKey) == Source
  {
    KeyHeads();
  }

  lemma FileKeysDispatch()
    ensures FileFieldOf(PathKey) == FilePath && FileFieldOf(LengthKey) == FileLength
    ensures FileFieldOf(Md5sumKey) == FileMd5sum
  {
    KeyHeads();
  }

  // ---------------------------------------------------------------------
  // Shape checks

  /** Whether the dictionary holds the key `k` with a value of the shape a
      `match` arm's `if let` expects. An arm whose test fails leaves the
      record unchanged. */
  predicate HasBytes(d: Dictionary, k: seq<byte>) {
    k in d && d[k].Bytes?
  }

  predicate HasInt(d: Dictionary, k: seq<byte>) {
    k in d && d[k].Int?
  }

  predicate HasList(d: Dictionary, k: seq<byte>) {
    k in d && d[k].List?
  }

  predicate HasDict(d: Dictionary, k: seq<byte>) {
    k in d && d[k].Dict?
  }

  // ---------------------------------------------------------------------
  // List filters

  /** A byte-string list item as text; anything else is dropped. */
  function TextOf(v: Value, lossy: Lossy): Option<string> {
    match v
    case Bytes(b) => Some(lossy(b))
    case _ => None
  }

  /** The byte-string items of a list, as text, in order (`path`,
      `httpseeds` and each announce tier). */
  function Texts(items: seq<Value>, lossy: Lossy): (r: seq<string>)
    ensures |r| <= |items|
    ensures forall u | u in r :: exists i :: 0 <= i < |items| && TextOf(items[i], lossy) == Some(u)
  {
    Keep(items, v => TextOf(v, lossy))
  }

  /** A `nodes` entry: a list whose element 0 is a byte string and element 1
      an integer. Further elements are not looked at. */
  function NodeOf(v: Value, lossy: Lossy): Option<TorrentNode> {
    match v
    case List(xs) =>
      if |xs| > 1 && xs[0].Bytes? && xs[1].Int? then Some(TorrentNode(lossy(xs[0].b), xs[1].n))
      else None
    case _ => None
  }

  function Nodes(items: seq<Value>, lossy: Lossy): (r: seq<TorrentNode>)
    ensures |r| <= |items|
    ensures forall n | n in r :: exists i :: 0 <= i < |items| && NodeOf(items[i], lossy) == Some(n)
  {
    Keep(items, v => NodeOf(v, lossy))
  }

  /** An `announce-list` tier: a list, filtered to its byte strings. A tier
      left empty by the filter is still a tier. */
  function TierOf(v: Value, lossy: Lossy): Option<seq<string>> {
    match v
    case List(xs) => Some(Texts(xs, lossy))
    case _ => None
  }

  function Tiers(items: seq<Value>, lossy: Lossy): (r: seq<seq<string>>)
    ensures |r| <= |items|
    ensures forall tier | tier in r :: exists i :: 0 <= i < |items| && TierOf(items[i], lossy) == Some(tier)
  {
    Keep(items, v => TierOf(v, lossy))
  }

  // ---------------------------------------------------------------------
  // A file dictionary

  /** The record each file dictionary starts from. */
  const FreshFile: TorrentFile := TorrentFile(path := [], length := 0, md5sum := None)

  /** One iteration of the file loop. `path` items are appended to the path
      built so far. */
  function StepFile(f: TorrentFile, key: seq<byte>, value: Value, lossy: Lossy): (r: TorrentFile)
    ensures |f.path| <= |r.path| && r.path[..|f.path|] == f.path
    ensures r.length != f.length ==> key == LengthKey && value.Int? && r.length == value.n
    ensures r.md5sum != f.md5sum ==> key == Md5sumKey && value.Bytes? && r.md5sum == Some(lossy(value.b))
    ensures FileFieldOf(key) == SkippedFileKey ==> r == f
    ensures FileFieldOf(key) == FilePath && value.List? ==> r.path == f.path + Texts(value.items, lossy)
    ensures FileFieldOf(key) == FileLength && value.Int? ==> r.length == value.n
    ensures FileFieldOf(key) == FileMd5sum && value.Bytes? ==> r.md5sum == Some(lossy(value.b))
  {
    match FileFieldOf(key)
    case FilePath =>
      (match value
       case List(items) => f.(path := f.path + Texts(items, lossy))
       case _ => f)
    case FileLength =>
      (match value
       case Int(n) => f.(length := n)
       case _ => f)
    case FileMd5sum =>
      (match value
       case Bytes(b) => f.(md5sum := Some(lossy(b)))
       case _ => f)
    case SkippedFileKey => f
  }

  function FileStep(lossy: Lossy): (TorrentFile, seq<byte>, Value) -> TorrentFile {
    (f, key, value) => StepFile(f, key, value, lossy)
  }

  /** The loop over a file dictionary's entries, in the order given. Over
      an iteration order of a dictionary it reads that dictionary. */
  function FileLoop(f: TorrentFile, es: seq<Entry>, lossy: Lossy): (r: TorrentFile)
    ensures DistinctKeys(es) ==> r == OverlayFile(f, ToMap(es), lossy)
  {
    FileLoopIsOverlay(f, es, lossy);
    Fold(f, es, FileStep(lossy))
  }

  /** Order-free reading of a file dictionary over the record `f`. */
  function OverlayFile(f: TorrentFile, d: Dictionary, lossy: Lossy): (r: TorrentFile)
    ensures |f.path| <= |r.path| && r.path[..|f.path|] == f.path
    ensures r.length != f.length ==> HasInt(d, LengthKey) && r.length == d[LengthKey].n
    ensures r.md5sum != f.md5sum ==> HasBytes(d, Md5sumKey) && r.md5sum == Some(lossy(d[Md5sumKey].b))
    ensures HasInt(d, LengthKey) ==> r.length == d[LengthKey].n
    ensures HasBytes(d, Md5sumKey) ==> r.md5sum == Some(lossy(d[Md5sumKey].b))
    ensures PathKey !in d && LengthKey !in d && Md5sumKey !in d ==> r == f
  {
    TorrentFile(
      path := if HasList(d, PathKey) then f.path + Texts(d[PathKey].items, lossy) else f.path,
      length := if HasInt(d, LengthKey) then d[LengthKey].n else f.length,
      md5sum := if HasBytes(d, Md5sumKey) then Some(lossy(d[Md5sumKey].b)) else f.md5sum)
  }

  function DecodeFile(d: Dictionary, lossy: Lossy): (r: TorrentFile)
    ensures r.path == (if HasList(d, PathKey) then Texts(d[PathKey].items, lossy) else [])
    ensures r.length == (if HasInt(d, LengthKey) then d[LengthKey].n else 0)
    ensures r.md5sum == (if HasBytes(d, Md5sumKey) then Some(lossy(d[Md5sumKey].b)) else None)
  {
    OverlayFile(FreshFile, d, lossy)
  }

  /** A `files` entry: every dictionary becomes a file, whatever keys it
      holds; anything else is dropped. */
  function FileOf(v: Value, lossy: Lossy): Option<TorrentFile> {
    match v
    case Dict(d) => Some(DecodeFile(d, lossy))
    case _ => None
  }

  function Files(items: seq<Value>, lossy: Lossy): (r: seq<TorrentFile>)
    ensures |r| <= |items|
    ensures forall f | f in r :: exists i :: 0 <= i < |items| && FileOf(items[i], lossy) == Some(f)
  {
    Keep(items, v => FileOf(v, lossy))
  }

  // ---------------------------------------------------------------------
  // The `info` dictionary

  /** The record a dictionary-valued `info` starts from. It differs from
      `DefaultInfo`: `pieces` and `length` are absent. */
  const FreshInfo: TorrentInfo := TorrentInfo(
    name := "",
    pieces := None,
    pieceLength := 0,
    md5sum := None,
    length := None,
    files := None,
    private := None,
    path := None,
    rootHash := None,
    source := None)

  /** The `private` rule: integers 0 and 1 are stored, any other integer is
      fatal, and any other shape keeps the current flag. */
  function PrivateFlag(value: Value, current: Option<byte>): (r: Result<Option<byte>, DecodeError>)
    ensures r.Failure? <==> value.Int? && value.n != 0 && value.n != 1
    ensures r.Failure? ==> r.error == UnexpectedPrivate(value.n)
    ensures r.Success? && value.Int? ==> r.value.Some? && r.value.value == value.n
    ensures !value.Int? ==> r == Success(current)
  {
    match value
    case Int(n) =>
      if n == 0 then Success(Some(0))
      else if n == 1 then Success(Some(1))
      else Failure(UnexpectedPrivate(n))
    case _ => Success(current)
  }

  /** One iteration of the `info` loop. */
  function StepInfo(info: TorrentInfo, key: seq<byte>, value: Value, lossy: Lossy): (r: Result<TorrentInfo, DecodeError>)
    ensures r.Failure? <==> InfoFieldOf(key) == Private && value.Int? && value.n != 0 && value.n != 1
    ensures r.Success? && InfoFieldOf(key) != Private ==> r.value.private == info.private
    ensures InfoFieldOf(key) == SkippedInfoKey ==> r == Success(info)
  {
    match InfoFieldOf(key)
    case Name =>
      (match value
       case Bytes(b) => Success(info.(name := lossy(b)))
       case _ => Success(info))
    case Pieces =>
      (match value
       case Bytes(b) => Success(info.(pieces := Some(b)))
       case _ => Success(info))
    case PieceLength =>
      (match value
       case Int(n) => Success(info.(pieceLength := n))
       case _ => Success(info))
    case InfoMd5sum =>
      (match value
       case Bytes(b) => Success(info.(md5sum := Some(lossy(b))))
       case _ => Success(info))
    case InfoLength =>
      (match value
       case Int(n) => Success(info.(length := Some(n)))
       case _ => Success(info))
    case FileList =>
      (match value
       case List(items) => Success(info.(files := Some(Files(items, lossy))))
       case _ => Success(info))
    case Private =>
      var flag :- PrivateFlag(value, info.private);
      Success(info.(private := flag))
    case InfoPath =>
      (match value
       case List(items) => Success(info.(path := Some(Texts(items, lossy))))
       case _ => Success(info))
    case RootHash =>
      (match value
       case Bytes(b) => Success(info.(rootHash := Some(lossy(b))))
       case _ => Success(info))
    case Source =>
      (match value
       case Bytes(b) => Success(info.(source := Some(lossy(b))))
       case _ => Success(info))
    case SkippedInfoKey => Success(info)
  }

  /** The loop over the `info` dictionary's entries, in the order given; it
      stops at the first fatal entry. Over an iteration order of a
      dictionary it reads that dictionary, failure included. */
  function InfoLoop(info: TorrentInfo, es: seq<Entry>, lossy: Lossy): (r: Result<TorrentInfo, DecodeError>)
    ensures DistinctKeys(es) ==> r == OverlayInfo(info, ToMap(es), lossy)
  {
    InfoLoopIsOverlay(info, es, lossy);
    Loop(info, es, InfoStep(lossy))
  }

  function InfoStep(lossy: Lossy): (TorrentInfo, seq<byte>, Value) -> Result<TorrentInfo, DecodeError> {
    (info, key, value) => StepInfo(info, key, value, lossy)
  }

  /** The `private` entry of an `info` dictionary is fatal. */
  predicate InvalidPrivate(d: Dictionary) {
    HasInt(d, PrivateKey) && d[PrivateKey].n != 0 && d[PrivateKey].n != 1
  }

  /** The `private` rule applied to the dictionary `d`. */
  function PrivateAt(d: Dictionary, current: Option<byte>): (r: Result<Option<byte>, DecodeError>)
    ensures r.Failure? <==> InvalidPrivate(d)
  {
    if PrivateKey in d then PrivateFlag(d[PrivateKey], current) else Success(current)
  }

  /** Order-free reading of every `info` field except `private`. */
  function OverlayInfoFields(info: TorrentInfo, d: Dictionary, lossy: Lossy): TorrentInfo {
    TorrentInfo(
      name := if HasBytes(d, NameKey) then lossy(d[NameKey].b) else info.name,
      pieces := if HasBytes(d, PiecesKey) then Some(d[PiecesKey].b) else info.pieces,
      pieceLength := if HasInt(d, PieceLengthKey) then d[PieceLengthKey].n else info.pieceLength,
      md5sum := if HasBytes(d, Md5sumKey) then Some(lossy(d[Md5sumKey].b)) else info.md5sum,
      length := if HasInt(d, LengthKey) then Some(d[LengthKey].n) else info.length,
      files := if HasList(d, FilesKey) then Some(Files(d[FilesKey].items, lossy)) else info.files,
      private := info.private,
      path := if HasList(d, PathKey) then Some(Texts(d[PathKey].items, lossy)) else info.path,
      rootHash := if HasBytes(d, RootHashKey) then Some(lossy(d[RootHashKey].b)) else info.rootHash,
      source := if HasBytes(d, SourceKey) then Some(lossy(d[SourceKey].b)) else info.source)
  }

  /** Order-free reading of an `info` dictionary over the record `info`. */
  function OverlayInfo(info: TorrentInfo, d: Dictionary, lossy: Lossy): (r: Result<TorrentInfo, DecodeError>)
    ensures r.Failure? <==> InvalidPrivate(d)
  {
    var flag :- PrivateAt(d, info.private);
    Success(OverlayInfoFields(info, d, lossy).(private := flag))
  }

  function DecodeInfo(d: Dictionary, lossy: Lossy): (r: Result<TorrentInfo, DecodeError>)
    ensures r.Failure? <==> InvalidPrivate(d)
    ensures r.Failure? ==> r.error == UnexpectedPrivate(d[PrivateKey].n)
    ensures r.Success? && HasInt(d, PrivateKey) ==> r.value.private == Some(d[PrivateKey].n as byte)
    ensures r.Success? && !HasInt(d, PrivateKey) ==> r.value.private == None
  {
    OverlayInfo(FreshInfo, d, lossy)
  }

  // ---------------------------------------------------------------------
  // The top-level dictionary

  /** One iteration of the top-level loop. */
  function StepTop(t: Torrent, key: seq<byte>, value: Value, lossy: Lossy): (r: Result<Torrent, DecodeError>)
    ensures r.Failure? <==> TopFieldOf(key) == Info && value.Dict? && InvalidPrivate(value.entries)
    ensures r.Success? && TopFieldOf(key) != Info ==> r.value.info == t.info
    ensures TopFieldOf(key) == SkippedTopKey ==> r == Success(t)
  {
    match TopFieldOf(key)
    case Info =>
      (match value
       case Dict(d) =>
         var info :- DecodeInfo(d, lossy);
         Success(t.(info := info))
       case _ => Success(t))
    case Announce =>
      (match value
       case Bytes(b) => Success(t.(announce := Some(lossy(b))))
       case _ => Success(t))
    case NodeList =>
      (match value
       case List(items) => Success(t.(nodes := Some(Nodes(items, lossy))))
       case _ => Success(t))
    case Encoding =>
      (match value
       case Bytes(b) => Success(t.(encoding := Some(lossy(b))))
       case _ => Success(t))
    case HttpSeeds =>
      (match value
       case List(items) => Success(t.(httpseeds := Some(Texts(items, lossy))))
       case _ => Success(t))
    case AnnounceList =>
      (match value
       case List(items) => Success(t.(announceList := Some(Tiers(items, lossy))))
       case _ => Success(t))
    case CreationDate =>
      (match value
       case Int(n) => Success(t.(creationDate := Some(n)))
       case _ => Success(t))
    case Comment =>
      (match value
       case Bytes(b) => Success(t.(comment := Some(lossy(b))))
       case _ => Success(t))
    case CreatedBy =>
      (match value
       case Bytes(b) => Success(t.(createdBy := Some(lossy(b))))
       case _ => Success(t))
    case SkippedTopKey => Success(t)
  }

  /** The loop over the top-level dictionary's entries, in the order given;
      it stops at the first fatal entry. Over an iteration order of a
      dictionary it reads that dictionary, failure included. */
  function DecodeLoop(t: Torrent, es: seq<Entry>, lossy: Lossy): (r: Result<Torrent, DecodeError>)
    ensures DistinctKeys(es) ==> r == OverlayTop(t, ToMap(es), lossy)
  {
    DecodeLoopIsOverlay(t, es, lossy);
    Loop(t, es, TopStep(lossy))
  }

  function TopStep(lossy: Lossy): (Torrent, seq<byte>, Value) -> Result<Torrent, DecodeError> {
    (t, key, value) => StepTop(t, key, value, lossy)
  }

  /** The top-level dictionary carries a dictionary `info` whose `private`
      entry is fatal. */
  predicate FatalPrivate(d: Dictionary) {
    HasDict(d, InfoKey) && InvalidPrivate(d[InfoKey].entries)
  }

  /** The `info` entry of the top-level dictionary `d`: a dictionary is
      decoded from `FreshInfo`; any other shape keeps the current record. */
  function InfoAt(d: Dictionary, current: TorrentInfo, lossy: Lossy): (r: Result<TorrentInfo, DecodeError>)
    ensures r.Failure? <==> FatalPrivate(d)
    ensures !HasDict(d, InfoKey) ==> r == Success(current)
    ensures HasDict(d, InfoKey) ==> r == DecodeInfo(d[InfoKey].entries, lossy)
  {
    if HasDict(d, InfoKey) then DecodeInfo(d[InfoKey].entries, lossy) else Success(current)
  }

  /** Order-free reading of every top-level field except `info`. */
  function OverlayTopFields(t: Torrent, d: Dictionary, lossy: Lossy): Torrent {
    Torrent(
      info := t.info,
      announce := if HasBytes(d, AnnounceKey) then Some(lossy(d[AnnounceKey].b)) else t.announce,
      nodes := if HasList(d, NodesKey) then Some(Nodes(d[NodesKey].items, lossy)) else t.nodes,
      encoding := if HasBytes(d, EncodingKey) then Some(lossy(d[EncodingKey].b)) else t.encoding,
      httpseeds := if HasList(d, HttpseedsKey) then Some(Texts(d[HttpseedsKey].items, lossy)) else t.httpseeds,
      announceList := if HasList(d, AnnounceListKey) then Some(Tiers(d[AnnounceListKey].items, lossy)) else t.announceList,
      creationDate := if HasInt(d, CreationDateKey) then Some(d[CreationDateKey].n) else t.creationDate,
      comment := if HasBytes(d, CommentKey) then Some(lossy(d[CommentKey].b)) else t.comment,
      createdBy := if HasBytes(d, CreatedByKey) then Some(lossy(d[CreatedByKey].b)) else t.createdBy)
  }

  /** Order-free reading of the top-level dictionary over the record `t`. */
  function OverlayTop(t: Torrent, d: Dictionary, lossy: Lossy): (r: Result<Torrent, DecodeError>)
    ensures r.Failure? <==> FatalPrivate(d)
  {
    var info :- InfoAt(d, t.info, lossy);
    Success(OverlayTopFields(t, d, lossy).(info := info))
  }

  /** `decode_torrent`: decoding starts from `Torrent::default()`. A top level
      that is not a dictionary is fatal; a dictionary fails only through
      the `private` rule. */
  function DecodeTorrent(v: Value, lossy: Lossy): (r: Result<Torrent, DecodeError>)
    ensures !v.Dict? ==> r.Failure? && r.error.UnexpectedTopLevel?
    ensures v.Dict? ==> (r.Failure? <==> FatalPrivate(v.entries))
    ensures r.Failure? ==> (r.error.UnexpectedPrivate? <==> v.Dict?)
    ensures v.Bytes? ==> r == Failure(UnexpectedTopLevel(ByteStringShape))
    ensures v.Int? ==> r == Failure(UnexpectedTopLevel(IntegerShape))
    ensures v.List? ==> r == Failure(UnexpectedTopLevel(ListShape))
  {
    match v
    case Dict(d) => OverlayTop(DefaultTorrent, d, lossy)
    case Bytes(_) => Failure(UnexpectedTopLevel(ByteStringShape))
    case Int(_) => Failure(UnexpectedTopLevel(IntegerShape))
    case List(_) => Failure(UnexpectedTopLevel(ListShape))
  }

  // ---------------------------------------------------------------------
  // The loops agree with the overlays, whatever the iteration order
  //
  // Each level is proved in three steps: one match arm is the overlay of a
  // one-entry dictionary; overlaying two dictionaries without common keys
  // one after the other is overlaying their union; so the loop, by
  // induction on the entries, is the overlay of the whole dictionary.

  /** The `match` arm of a file entry writes only that entry's field. */
  lemma FileStepIsOverlay(f: TorrentFile, k: seq<byte>, v: Value, lossy: Lossy)
    ensures StepFile(f, k, v, lossy) == OverlayFile(f, map[k := v], lossy)
  {
    FileKeysDispatch();
  }

  lemma FileOverlayCompose(f: TorrentFile, m1: Dictionary, m2: Dictionary, lossy: Lossy)
    requires m1.Keys !! m2.Keys
    ensures OverlayFile(OverlayFile(f, m1, lossy), m2, lossy) == OverlayFile(f, m1 + m2, lossy)
  {
  }

  lemma FileLoopIsOverlay(f: TorrentFile, es: seq<Entry>, lossy: Lossy)
    ensures DistinctKeys(es) ==> Fold(f, es, FileStep(lossy)) == OverlayFile(f, ToMap(es), lossy)
  {
    var overlay := (g: TorrentFile, d: Dictionary) => OverlayFile(g, d, lossy);
    forall g: TorrentFile, k: seq<byte>, v: Value
      ensures FileStep(lossy)(g, k, v) == overlay(g, map[k := v])
    {
      FileStepIsOverlay(g, k, v, lossy);
    }
    forall g: TorrentFile, m1: Dictionary, m2: Dictionary | m1.Keys !! m2.Keys
      ensures overlay(overlay(g, m1), m2) == overlay(g, m1 + m2)
    {
      FileOverlayCompose(g, m1, m2, lossy);
    }
    if DistinctKeys(es) {
      FoldIsOverlay(f, es, FileStep(lossy), overlay);
    }
  }

  /** A file dictionary decodes to the same record in every iteration order. */
  lemma FileDecodeOrderFree(d: Dictionary, es: seq<Entry>, lossy: Lossy)
    requires Enumerates(es, d)
    ensures FileLoop(FreshFile, es, lossy) == DecodeFile(d, lossy)
  {
  }

  /** An `info` text arm writes only its own field. */
  lemma InfoTextStepIsOverlay(info: TorrentInfo, k: seq<byte>, v: Value, lossy: Lossy)
    requires InfoFieldOf(k) in {Name, Pieces, InfoMd5sum, RootHash, Source}
    ensures StepInfo(info, k, v, lossy) == Success(OverlayInfoFields(info, map[k := v], lossy))
  {
    KeyHeads();
  }

  /** The other `info` arms, `private` aside, write only their own field. */
  lemma InfoOtherStepIsOverlay(info: TorrentInfo, k: seq<byte>, v: Value, lossy: Lossy)
    requires InfoFieldOf(k) in {PieceLength, InfoLength, FileList, InfoPath, SkippedInfoKey}
    ensures StepInfo(info, k, v, lossy) == Success(OverlayInfoFields(info, map[k := v], lossy))
  {
    KeyHeads();
  }

  /** The `match` arm of an `info` entry writes only that entry's field, or
      fails exactly as the overlay of that one entry does. */
  lemma InfoStepIsOverlay(info: TorrentInfo, k: seq<byte>, v: Value, lossy: Lossy)
    ensures StepInfo(info, k, v, lossy) == OverlayInfo(info, map[k := v], lossy)
  {
    if InfoFieldOf(k) == Private {
      assert k == PrivateKey;
    } else {
      assert k != PrivateKey by { InfoKeysDispatch(); }
      if InfoFieldOf(k) in {Name, Pieces, InfoMd5sum, RootHash, Source} {
        InfoTextStepIsOverlay(info, k, v, lossy);
      } else {
        InfoOtherStepIsOverlay(info, k, v, lossy);
      }
    }
  }

  lemma InfoFieldsCompose(info: TorrentInfo, m1: Dictionary, m2: Dictionary, lossy: Lossy)
    requires m1.Keys !! m2.Keys
    ensures OverlayInfoFields(OverlayInfoFields(info, m1, lossy), m2, lossy) == OverlayInfoFields(info, m1 + m2, lossy)
  {
  }

  /** The field overlay neither reads nor writes `private`. */
  lemma InfoFieldsKeepPrivate(info: TorrentInfo, m: Dictionary, p: Option<byte>, lossy: Lossy)
    ensures OverlayInfoFields(info.(private := p), m, lossy) == OverlayInfoFields(info, m, lossy).(private := p)
  {
  }

  lemma InfoOverlayCompose(info: TorrentInfo, m1: Dictionary, m2: Dictionary, lossy: Lossy)
    requires m1.Keys !! m2.Keys
    ensures OverlayInfo(info, m1, lossy).Success? ==>
      OverlayInfo(OverlayInfo(info, m1, lossy).value, m2, lossy) == OverlayInfo(info, m1 + m2, lossy)
    ensures OverlayInfo(info, m1, lossy).Failure? ==>
      OverlayInfo(info, m1 + m2, lossy) == OverlayInfo(info, m1, lossy)
  {
    var m := m1 + m2;
    if PrivateKey in m1 {
      assert m[PrivateKey] == m1[PrivateKey];
    }
    var r1 := OverlayInfo(info, m1, lossy);
    if r1.Success? {
      var f1 := OverlayInfoFields(info, m1, lossy);
      InfoFieldsKeepPrivate(f1, m2, r1.value.private, lossy);
      InfoFieldsCompose(info, m1, m2, lossy);
    }
  }

  lemma InfoLoopIsOverlay(info: TorrentInfo, es: seq<Entry>, lossy: Lossy)
    ensures DistinctKeys(es) ==> Loop(info, es, InfoStep(lossy)) == OverlayInfo(info, ToMap(es), lossy)
  {
    var overlay := (i: TorrentInfo, d: Dictionary) => OverlayInfo(i, d, lossy);
    forall i: TorrentInfo, k: seq<byte>, v: Value
      ensures InfoStep(lossy)(i, k, v) == overlay(i, map[k := v])
    {
      InfoStepIsOverlay(i, k, v, lossy);
    }
    forall i: TorrentInfo
      ensures overlay(i, map[]) == Success(i)
    {
      assert OverlayInfoFields(i, map[], lossy) == i;
    }
    forall i: TorrentInfo, m1: Dictionary, m2: Dictionary | m1.Keys !! m2.Keys
      ensures overlay(i, m1).Success? ==> overlay(overlay(i, m1).value, m2) == overlay(i, m1 + m2)
      ensures overlay(i, m1).Failure? ==> overlay(i, m1 + m2) == overlay(i, m1)
    {
      InfoOverlayCompose(i, m1, m2, lossy);
    }
    if DistinctKeys(es) {
      LoopIsOverlay(info, es, InfoStep(lossy), overlay);
    }
  }

  /** An `info` dictionary decodes to the same result, record or failure, in
      every iteration order. */
  lemma InfoDecodeOrderFree(d: Dictionary, es: seq<Entry>, lossy: Lossy)
    requires Enumerates(es, d)
    ensures InfoLoop(FreshInfo, es, lossy) == DecodeInfo(d, lossy)
  {
  }

  /** A top-level text arm writes only its own field. */
  lemma TopTextStepIsOverlay(t: Torrent, k: seq<byte>, v: Value, lossy: Lossy)
    requires TopFieldOf(k) in {Announce, Encoding, Comment, CreatedBy}
    ensures StepTop(t, k, v, lossy) == Success(OverlayTopFields(t, map[k := v], lossy))
  {
    KeyHeads();
  }

  /** A top-level list arm writes only its own field. */
  lemma TopListStepIsOverlay(t: Torrent, k: seq<byte>, v: Value, lossy: Lossy)
    requires TopFieldOf(k) in {NodeList, HttpSeeds, AnnounceList}
    ensures StepTop(t, k, v, lossy) == Success(OverlayTopFields(t, map[k := v], lossy))
  {
    KeyHeads();
  }

  /** The `creation date` arm and the skipped-key arm write only their own
      field. */
  lemma TopOtherStepIsOverlay(t: Torrent, k: seq<byte>, v: Value, lossy: Lossy)
    requires TopFieldOf(k) in {CreationDate, SkippedTopKey}
    ensures StepTop(t, k, v, lossy) == Success(OverlayTopFields(t, map[k := v], lossy))
  {
    KeyHeads();
  }

  /** The `match` arm of a top-level entry writes only that entry's field, or
      fails exactly as the overlay of that one entry does. */
  lemma TopStepIsOverlay(t: Torrent, k: seq<byte>, v: Value, lossy: Lossy)
    ensures StepTop(t, k, v, lossy) == OverlayTop(t, map[k := v], lossy)
  {
    if TopFieldOf(k) == Info {
      assert k == InfoKey;
    } else {
      assert k != InfoKey by { TopKeysDispatch(); }
      if TopFieldOf(k) in {Announce, Encoding, Comment, CreatedBy} {
        TopTextStepIsOverlay(t, k, v, lossy);
      } else if TopFieldOf(k) in {NodeList, HttpSeeds, AnnounceList} {
        TopListStepIsOverlay(t, k, v, lossy);
      } else {
        TopOtherStepIsOverlay(t, k, v, lossy);
      }
    }
  }

  lemma TopFieldsCompose(t: Torrent, m1: Dictionary, m2: Dictionary, lossy: Lossy)
    requires m1.Keys !! m2.Keys
    ensures OverlayTopFields(OverlayTopFields(t, m1, lossy), m2, lossy) == OverlayTopFields(t, m1 + m2, lossy)
  {
  }

  /** The field overlay neither reads nor writes `info`. */
  lemma TopFieldsKeepInfo(t: Torrent, m: Dictionary, info: TorrentInfo, lossy: Lossy)
    ensures OverlayTopFields(t.(info := info), m, lossy) == OverlayTopFields(t, m, lossy).(info := info)
  {
  }

  lemma TopOverlayCompose(t: Torrent, m1: Dictionary, m2: Dictionary, lossy: Lossy)
    requires m1.Keys !! m2.Keys
    ensures OverlayTop(t, m1, lossy).Success? ==>
      OverlayTop(OverlayTop(t, m1, lossy).value, m2, lossy) == OverlayTop(t, m1 + m2, lossy)
    ensures OverlayTop(t, m1, lossy).Failure? ==>
      OverlayTop(t, m1 + m2, lossy) == OverlayTop(t, m1, lossy)
  {
    var m := m1 + m2;
    if InfoKey in m1 {
      assert m[InfoKey] == m1[InfoKey];
    }
    var r1 := OverlayTop(t, m1, lossy);
    if r1.Success? {
      var f1 := OverlayTopFields(t, m1, lossy);
      TopFieldsKeepInfo(f1, m2, r1.value.info, lossy);
      TopFieldsCompose(t, m1, m2, lossy);
    }
  }

  lemma DecodeLoopIsOverlay(t: Torrent, es: seq<Entry>, lossy: Lossy)
    ensures DistinctKeys(es) ==> Loop(t, es, TopStep(lossy)) == OverlayTop(t, ToMap(es), lossy)
  {
    var overlay := (u: Torrent, d: Dictionary) => OverlayTop(u, d, lossy);
    forall u: Torrent, k: seq<byte>, v: Value
      ensures TopStep(lossy)(u, k, v) == overlay(u, map[k := v])
    {
      TopStepIsOverlay(u, k, v, lossy);
    }
    forall u: Torrent
      ensures overlay(u, map[]) == Success(u)
    {
      assert OverlayTopFields(u, map[], lossy) == u;
    }
    forall u: Torrent, m1: Dictionary, m2: Dictionary | m1.Keys !! m2.Keys
      ensures overlay(u, m1).Success? ==> overlay(overlay(u, m1).value, m2) == overlay(u, m1 + m2)
      ensures overlay(u, m1).Failure? ==> overlay(u, m1 + m2) == overlay(u, m1)
    {
      TopOverlayCompose(u, m1, m2, lossy);
    }
    if DistinctKeys(es) {
      LoopIsOverlay(t, es, TopStep(lossy), overlay);
    }
  }

  /** The source's loop over a top-level dictionary, run in any iteration
      order of the hash map, gives `DecodeTorrent`'s result. */
  lemma DecodeOrderFree(d: Dictionary, es: seq<Entry>, lossy: Lossy)
    requires Enumerates(es, d)
    ensures DecodeLoop(DefaultTorrent, es, lossy) == DecodeTorrent(Dict(d), lossy)
  {
  }

  /** Two iteration orders of the same dictionary decode alike. */
  lemma IterationOrderIrrelevant(d: Dictionary, es1: seq<Entry>, es2: seq<Entry>, lossy: Lossy)
    requires Enumerates(es1, d) && Enumerates(es2, d)
    ensures DecodeLoop(DefaultTorrent, es1, lossy) == DecodeLoop(DefaultTorrent, es2, lossy)
  {
    DecodeOrderFree(d, es1, lossy);
    DecodeOrderFree(d, es2, lossy);
  }
}

=== FILE: dict_loops.dfy ===
/** The decoder's `for (key, value) in dict { match key { ... } }` loops,
    over one iteration order of the dictionary, and the argument that makes
    their result independent of that order.

    When each step is the overlay of its own one-entry dictionary, and
    overlaying two dictionaries without common keys one after the other is
    overlaying their union, then the loop over any enumeration of a
    dictionary is the overlay of the whole dictionary. */
module DictLoops {
  import opened Results
  import opened Bencode

  /** A loop whose body cannot fail. */
  function Fold<S>(s: S, es: seq<Entry>, step: (S, seq<byte>, Value) -> S): S
    decreases |es|
  {
    if |es| == 0 then s
    else Fold(step(s, es[0].0, es[0].1), es[1..], step)
  }

  /** A loop whose body may abort it (a `panic!`): the first failure is the
      loop's result. */
  function Loop<S, E>(s: S, es: seq<Entry>, step: (S, seq<byte>, Value) -> Result<S, E>): Result<S, E>
    decreases |es|
  {
    if |es| == 0 then Success(s)
    else
      var next :- step(s, es[0].0, es[0].1);
      Loop(next, es[1..], step)
  }

  lemma {:induction false} FoldIsOverlay<S>(s: S, es: seq<Entry>, step: (S, seq<byte>, Value) -> S,
                                            overlay: (S, Dictionary) -> S)
    requires DistinctKeys(es)
    requires forall s', k, v :: step(s', k, v) == overlay(s', map[k := v])
    requires forall s' :: overlay(s', map[]) == s'
    requires forall s': S, m1: Dictionary, m2: Dictionary | m1.Keys !! m2.Keys ::
      overlay(overlay(s', m1), m2) == overlay(s', m1 + m2)
    ensures Fold(s, es, step) == overlay(s, ToMap(es))
    decreases |es|
  {
    if |es| == 0 {
      assert ToMap(es) == map[];
    } else {
      var head, rest := map[es[0].0 := es[0].1], ToMap(es[1..]);
      DistinctTail(es);
      assert head.Keys !! rest.Keys;
      assert head + rest == ToMap(es);
      var next := step(s, es[0].0, es[0].1);
      assert next == overlay(s, head);
      FoldIsOverlay(next, es[1..], step, overlay);
    }
  }

  lemma {:induction false} LoopIsOverlay<S, E>(s: S, es: seq<Entry>, step: (S, seq<byte>, Value) -> Result<S, E>,
                                               overlay: (S, Dictionary) -> Result<S, E>)
    requires DistinctKeys(es)
    requires forall s', k, v :: step(s', k, v) == overlay(s', map[k := v])
    requires forall s' :: overlay(s', map[]) == Success(s')
    requires forall s': S, m1: Dictionary, m2: Dictionary | m1.Keys !! m2.Keys && overlay(s', m1).Success? ::
      overlay(overlay(s', m1).value, m2) == overlay(s', m1 + m2)
    requires forall s': S, m1: Dictionary, m2: Dictionary | m1.Keys !! m2.Keys && overlay(s', m1).Failure? ::
      overlay(s', m1 + m2) == overlay(s', m1)
    ensures Loop(s, es, step) == overlay(s, ToMap(es))
    decreases |es|
  {
    if |es| == 0 {
      assert ToMap(es) == map[];
    } else {
      var head, rest := map[es[0].0 := es[0].1], ToMap(es[1..]);
      DistinctTail(es);
      assert head.Keys !! rest.Keys;
      assert head + rest == ToMap(es);
      var next := step(s, es[0].0, es[0].1);
      assert next == overlay(s, head);
      if next.Success? {
        LoopIsOverlay(next.value, es[1..], step, overlay);
      }
    }
  }
}

=== FILE: info_hash.dfy ===
/** The 20-byte BitTorrent v1 info hash: constructors with exact length
    checks, the 40-character hexadecimal text form (Display, `FromStr` and
    the serde string codec), and the lexicographic byte order.

    The hexadecimal conversions are those of the `binascii` crate
    (`bin2hex` and `hex2bin`); that crate is not part of this model, so its
    two functions are written out here as the crate implements them. */
module InfoHashes {
  import opened Results
  import opened Bencode

  /** `INFO_HASH_BYTES_LEN`. */
  const InfoHashBytesLen: nat := 20

  type Bytes20 = s: seq<byte> | |s| == 20 witness seq(20, i => 0)

  /** `InfoHash(pub [u8; 20])`. */
  datatype InfoHash = InfoHash(bytes: Bytes20)

  // ---------------------------------------------------------------------
  // Constructors

  /** `InfoHash::from_bytes`: the caller must pass exactly 20 bytes (the
      source asserts it and panics otherwise); they are copied unchanged. */
  function FromBytes(bs: seq<byte>): (h: InfoHash)
    requires |bs| == InfoHashBytesLen
    ensures forall i | 0 <= i < |bs| :: h.bytes[i] == bs[i]
  {
    InfoHash(bs)
  }

  /** `InfoHash::bytes`: the internal byte array. */
  function BytesOf(h: InfoHash): (bs: seq<byte>)
    ensures |bs| == InfoHashBytesLen
    ensures FromBytes(bs) == h
  {
    h.bytes
  }

  /** `From<&[u8]>`: the same contract as `from_bytes`. */
  function FromSlice(data: seq<byte>): (h: InfoHash)
    requires |data| == 20
    ensures BytesOf(h) == data
  {
    var ret := InfoHash(data);
    ret
  }

  /** `From<[u8; 20]>`: wraps the array unchanged. */
  function FromArray(val: Bytes20): (h: InfoHash)
    ensures BytesOf(h) == val
    ensures h == FromBytes(val)
  {
    InfoHash(val)
  }

  /** `ConversionError`, with the byte count its message reports. The
      caller's source location is not modelled. */
  datatype ConversionError =
    | NotEnoughBytes(got: nat)
    | TooManyBytes(got: nat)

  /** `TryFrom<Vec<u8>>`: too short and too long are distinct errors;
      exactly 20 bytes give the hash of those bytes. */
  function TryFromVec(bytes: seq<byte>): (r: Result<InfoHash, ConversionError>)
    ensures r.Success? <==> |bytes| == InfoHashBytesLen
    ensures r.Success? ==> BytesOf(r.value) == bytes
    ensures |bytes| < InfoHashBytesLen <==> r == Failure(NotEnoughBytes(|bytes|))
    ensures |bytes| > InfoHashBytesLen <==> r == Failure(TooManyBytes(|bytes|))
  {
    if |bytes| < InfoHashBytesLen then Failure(NotEnoughBytes(|bytes|))
    else if |bytes| > InfoHashBytesLen then Failure(TooManyBytes(|bytes|))
    else Success(FromBytes(bytes))
  }

  // ---------------------------------------------------------------------
  // Text as bytes: Rust's `str::as_bytes` and `str::len`

  /** The UTF-8 encoding of one character (RFC 3629, section 3). Every byte
      of a character outside ASCII is at least 0x80. */
  function EncodeChar(c: char): (r: seq<byte>)
    ensures 1 <= |r| <= 4
    ensures c as int < 0x80 ==> r == [c as int]
    ensures c as int >= 0x80 ==> forall i | 0 <= i < |r| :: r[i] >= 0x80
  {
    var n := c as int;
    if n < 0x80 then [n]
    else if n < 0x800 then [0xC0 + n / 0x40, 0x80 + n % 0x40]
    else if n < 0x1_0000 then [0xE0 + n / 0x1000, 0x80 + n / 0x40 % 0x40, 0x80 + n % 0x40]
    else [0xF0 + n / 0x4_0000, 0x80 + n / 0x1000 % 0x40, 0x80 + n / 0x40 % 0x40, 0x80 + n % 0x40]
  }

  /** `str::as_bytes`: the UTF-8 encoding of a text. */
  function Utf8(s: string): (r: seq<byte>)
    ensures |r| >= |s|
  {
    if |s| == 0 then [] else EncodeChar(s[0]) + Utf8(s[1..])
  }

  /** `str::len`: the length in bytes, which exceeds the number of
      characters when the text is not ASCII. */
  function Utf8Length(s: string): nat {
    |Utf8(s)|
  }

  predicate IsAscii(s: string) {
    forall i | 0 <= i < |s| :: s[i] as int < 0x80
  }

  /** An ASCII text is its own byte string. */
  lemma {:induction false} Utf8OfAscii(s: string)
    requires IsAscii(s)
    ensures Utf8(s) == Ascii(s)
  {
    if |s| > 0 {
      Utf8OfAscii(s[1..]);
      assert Ascii(s) == [s[0] as int] + Ascii(s[1..]);
    }
  }

  /** A character outside ASCII puts a byte of at least 0x80 into the
      encoding. */
  lemma {:induction false} Utf8OfNonAscii(s: string, i: int)
    requires 0 <= i < |s| && s[i] as int >= 0x80
    ensures exists j :: 0 <= j < |Utf8(s)| && Utf8(s)[j] >= 0x80
  {
    var head := EncodeChar(s[0]);
    if i == 0 {
      assert Utf8(s)[0] == head[0];
    } else {
      Utf8OfNonAscii(s[1..], i - 1);
      var j :| 0 <= j < |Utf8(s[1..])| && Utf8(s[1..])[j] >= 0x80;
      assert Utf8(s)[|head| + j] == Utf8(s[1..])[j];
    }
  }

  // ---------------------------------------------------------------------
  // Hexadecimal digits

  /** `binascii::ConvertError`. */
  datatype ConvertError = InvalidInputLength | InvalidOutputLength | InvalidInput

  /** A hexadecimal digit byte of either case, as `hex2bin` accepts. */
  predicate IsHexDigit(b: int) {
    ('0' as int <= b <= '9' as int) || ('a' as int <= b <= 'f' as int) || ('A' as int <= b <= 'F' as int)
  }

  /** The value of a hexadecimal digit byte. */
  function DigitValue(b: int): (v: int)
    requires IsHexDigit(b)
    ensures 0 <= v < 16
  {
    if 'a' as int <= b <= 'f' as int then b - 'a' as int + 10
    else if 'A' as int <= b <= 'F' as int then b - 'A' as int + 10
    else b - '0' as int
  }

  /** The digit table of `bin2hex`: lower case only. */
  const LowerDigits: seq<byte> := [0x30, 0x31, 0x32, 0x33, 0x34, 0x35, 0x36, 0x37,
                                   0x38, 0x39, 0x61, 0x62, 0x63, 0x64, 0x65, 0x66]  // "0123456789abcdef"

  /** Table entry `n` is a digit of value `n`, and never an upper-case letter. */
  lemma LowerDigitsValues()
    ensures |LowerDigits| == 16
    ensures forall n | 0 <= n < 16 :: IsHexDigit(LowerDigits[n]) && DigitValue(LowerDigits[n]) == n
    ensures forall n | 0 <= n < 16 :: !('A' as int <= LowerDigits[n] <= 'F' as int)
  {
  }

  /** The high (`half == 0`) or low (`half == 1`) four bits of a byte. */
  function Nibble(b: byte, half: int): (v: int)
    requires half == 0 || half == 1
    ensures 0 <= v < 16
  {
    if half == 0 then b / 16 else b % 16
  }

  /** `binascii::bin2hex`: each input byte becomes two lower-case digits,
      high half first; the output buffer must hold twice the input. */
  function Bin2Hex(input: seq<byte>, outLen: nat): (r: Result<seq<byte>, ConvertError>)
    ensures r.Failure? <==> outLen < 2 * |input|
    ensures r.Failure? ==> r.error == InvalidOutputLength
    ensures r.Success? ==> |r.value| == 2 * |input|
    ensures r.Success? ==> forall j | 0 <= j < |r.value| ::
      && IsHexDigit(r.value[j]) && r.value[j] < 0x80 && !('A' as int <= r.value[j] <= 'F' as int)
      && DigitValue(r.value[j]) == Nibble(input[j / 2], j % 2)
  {
    LowerDigitsValues();
    if outLen < 2 * |input| then Failure(InvalidOutputLength)
    else Success(seq(2 * |input|, j requires 0 <= j < 2 * |input| => LowerDigits[Nibble(input[j / 2], j % 2)]))
  }

  predicate AllHexDigits(input: seq<byte>) {
    forall j | 0 <= j < |input| :: IsHexDigit(input[j])
  }

  /** The byte two digits encode, high digit first. */
  function PairValue(hi: int, lo: int): (b: byte)
    requires IsHexDigit(hi) && IsHexDigit(lo)
  {
    16 * DigitValue(hi) + DigitValue(lo)
  }

  /** `binascii::hex2bin`, as a definition: the input must have even
      length, the output buffer must hold half of it, and every byte must
      be a digit of either case; the result is the written prefix of the
      buffer. */
  function Hex2Bin(input: seq<byte>, outLen: nat): (r: Result<seq<byte>, ConvertError>)
    ensures r.Success? <==> |input| % 2 == 0 && |input| / 2 <= outLen && AllHexDigits(input)
    ensures r.Success? ==> |r.value| == |input| / 2
    ensures r.Success? ==> forall i | 0 <= i < |r.value| :: r.value[i] == PairValue(input[2 * i], input[2 * i + 1])
  {
    if |input| % 2 != 0 then Failure(InvalidInputLength)
    else if |input| / 2 > outLen then Failure(InvalidOutputLength)
    else if !AllHexDigits(input) then Failure(InvalidInput)
    else Success(seq(|input| / 2, i requires 0 <= i < |input| / 2 => PairValue(input[2 * i], input[2 * i + 1])))
  }

  /** The inner loop of `binascii::hex2bin`: the two digits of one block
      shifted into an 8-bit accumulator, high digit first; `None` at the
      first byte that is not a digit. */
  method DecodeBlock(digits: seq<byte>) returns (r: Option<byte>)
    requires |digits| == 2
    ensures r.Some? <==> IsHexDigit(digits[0]) && IsHexDigit(digits[1])
    ensures r.Some? ==> r.value == PairValue(digits[0], digits[1])
  {
    var num: byte := 0;
    var d := 0;
    while d < 2
      invariant 0 <= d <= 2
      invariant forall j | 0 <= j < d :: IsHexDigit(digits[j])
      invariant d == 0 ==> num == 0
      invariant d == 1 ==> num == DigitValue(digits[0])
      invariant d == 2 ==> num == PairValue(digits[0], digits[1])
    {
      var digit := digits[d];
      if !IsHexDigit(digit) {
        return None;
      }
      // `(num << 4) | val` on a `u8`: the shift drops the high bits and
      // leaves the low four clear for `val`.
      num := (num * 16) % 0x100 + DigitValue(digit);
      d := d + 1;
    }
    return Some(num);
  }

  /** `binascii::hex2bin` as the crate runs it: the two length checks, then
      one block of two digits at a time into the output buffer; the first
      block holding a byte that is not a digit stops it. */
  method Hex2BinBlocks(input: seq<byte>, outLen: nat) returns (r: Result<seq<byte>, ConvertError>)
    ensures r == Hex2Bin(input, outLen)
  {
    if |input| % 2 != 0 {
      return Failure(InvalidInputLength);
    }
    if |input| / 2 > outLen {
      return Failure(InvalidOutputLength);
    }
    var output: seq<byte> := [];
    var block := 0;
    while block < |input| / 2
      invariant 0 <= block <= |input| / 2
      invariant |output| == block
      invariant forall j | 0 <= j < 2 * block :: IsHexDigit(input[j])
      invariant forall i | 0 <= i < block :: output[i] == PairValue(input[2 * i], input[2 * i + 1])
    {
      var num := DecodeBlock(input[2 * block..2 * block + 2]);
      if num.None? {
        return Failure(InvalidInput);
      }
      output := output + [num.value];
      block := block + 1;
    }
    assert AllHexDigits(input);
    assert output == seq(|input| / 2, i requires 0 <= i < |input| / 2 => PairValue(input[2 * i], input[2 * i + 1]));
    return Success(output);
  }

  // ---------------------------------------------------------------------
  // Hexadecimal text

  /** A character that is a hexadecimal digit of either case. */
  predicate IsHexChar(c: char) {
    IsHexDigit(c as int)
  }

  predicate IsHexText(s: string) {
    forall i | 0 <= i < |s| :: IsHexChar(s[i])
  }

  /** A lower-case hexadecimal digit character. */
  predicate IsLowerHexChar(c: char) {
    IsHexChar(c) && !('A' <= c <= 'F')
  }

  /** `char::to_ascii_lowercase`: upper-case ASCII letters move down by
      32; every other character is kept. */
  function LowerChar(c: char): char {
    if 'A' <= c <= 'Z' then (c as int + 32) as char else c
  }

  /** `str::to_ascii_lowercase`. */
  function ToLower(s: string): (r: string)
    ensures |r| == |s|
    ensures forall i | 0 <= i < |s| :: r[i] == LowerChar(s[i])
  {
    seq(|s|, i requires 0 <= i < |s| => LowerChar(s[i]))
  }

  /** `std::str::from_utf8` on bytes that are all ASCII, where it cannot
      fail: each byte is one character. */
  function AsciiText(bs: seq<byte>): (s: string)
    requires forall j | 0 <= j < |bs| :: bs[j] < 0x80
    ensures IsAscii(s) && Ascii(s) == bs
  {
    seq(|bs|, j requires 0 <= j < |bs| => bs[j] as char)
  }

  /** A hexadecimal text of 40 bytes is 40 ASCII characters: a character
      outside ASCII would put a byte of at least 0x80, not a digit, into the
      encoding. */
  lemma HexBytesAreHexText(s: string)
    ensures AllHexDigits(Utf8(s)) <==> IsHexText(s)
    ensures IsHexText(s) ==> Utf8(s) == Ascii(s)
  {
    if IsHexText(s) {
      Utf8OfAscii(s);
    }
    if AllHexDigits(Utf8(s)) {
      if !IsAscii(s) {
        var i :| 0 <= i < |s| && s[i] as int >= 0x80;
        Utf8OfNonAscii(s, i);
      }
      Utf8OfAscii(s);
      assert forall i | 0 <= i < |s| :: Utf8(s)[i] == s[i] as int;
    }
  }

  // ---------------------------------------------------------------------
  // Display, `FromStr` and the serde codec

  /** `Display` and `to_hex_string`: `bin2hex` into a 40-byte buffer (so
      its `expect` never fires), read back as text: 40 lower-case digits,
      two per byte, high half first. */
  function Display(h: InfoHash): (r: string)
    ensures |r| == 40
    ensures forall j | 0 <= j < |r| :: IsLowerHexChar(r[j]) && DigitValue(r[j] as int) == Nibble(h.bytes[j / 2], j % 2)
  {
    LowerDigitsValues();
    var chars := Bin2Hex(h.bytes, 40).value;
    AsciiText(chars)
  }

  /** `InfoHash::to_hex_string`, which formats through `Display`; its text
      parses back to the same hash. */
  function ToHexString(h: InfoHash): (r: string)
    ensures r == Display(h)
    ensures FromStr(r) == Success(h)
  {
    DisplayFromStrRoundTrip(h);
    Display(h)
  }

  /** `FromStr`: a text whose byte length is not 40 is rejected by length;
      otherwise `hex2bin` decodes it, accepting digits of either case and
      rejecting anything else. */
  function FromStr(s: string): (r: Result<InfoHash, ConvertError>)
    ensures Utf8Length(s) != 40 ==> r == Failure(InvalidInputLength)
    ensures r.Success? <==> |s| == 40 && IsHexText(s)
    ensures Utf8Length(s) == 40 && r.Failure? ==> r.error == InvalidInput
    ensures r.Success? ==> forall i | 0 <= i < 20 :: r.value.bytes[i] == PairValue(s[2 * i] as int, s[2 * i + 1] as int)
  {
    HexBytesAreHexText(s);
    if Utf8Length(s) != 40 then Failure(InvalidInputLength)
    else
      var bytes :- Hex2Bin(Utf8(s), 20);
      Success(InfoHash(bytes))
  }

  /** `Serialize`: `bin2hex` into a 40-byte buffer, serialised as a string;
      the same text `Display` gives. */
  function Serialize(h: InfoHash): (r: string)
    ensures r == Display(h)
    ensures FromStr(r) == Success(h)
  {
    DisplayFromStrRoundTrip(h);
    var bytesOut := Bin2Hex(h.bytes, 40).value;
    AsciiText(bytesOut)
  }

  /** `serde::de::Error::invalid_value(Unexpected::Str(v), &expected)`. */
  datatype DeserializeError = InvalidValue(unexpected: string, expected: string)

  const ExpectedLength: string := "a 40 character long string"
  const ExpectedHex: string := "a hexadecimal string"

  /** `InfoHashVisitor::visit_str`: the `FromStr` checks, reported as serde
      errors that quote the input. */
  function VisitStr(v: string): (r: Result<InfoHash, DeserializeError>)
    ensures r.Success? <==> FromStr(v).Success?
    ensures r.Success? ==> r.value == FromStr(v).value
    ensures r.Failure? ==> r.error.unexpected == v
    ensures r.Failure? ==> (r.error.expected == ExpectedLength <==> Utf8Length(v) != 40)
    ensures r.Failure? ==> (r.error.expected == ExpectedHex <==> Utf8Length(v) == 40)
  {
    if Utf8Length(v) != 40 then Failure(InvalidValue(v, ExpectedLength))
    else
      match Hex2Bin(Utf8(v), 20)
      case Failure(_) => Failure(InvalidValue(v, ExpectedHex))
      case Success(res) => Success(InfoHash(res))
  }

  // ---------------------------------------------------------------------
  // Round trips

  /** Two digits of a byte decode to that byte. */
  lemma PairOfNibbles(hi: int, lo: int, b: byte)
    requires IsHexDigit(hi) && IsHexDigit(lo)
    requires DigitValue(hi) == Nibble(b, 0) && DigitValue(lo) == Nibble(b, 1)
    ensures PairValue(hi, lo) == b
  {
  }

  /** The byte two digits encode has their values as its halves. */
  lemma NibblesOfPair(hi: int, lo: int)
    requires IsHexDigit(hi) && IsHexDigit(lo)
    ensures Nibble(PairValue(hi, lo), 0) == DigitValue(hi)
    ensures Nibble(PairValue(hi, lo), 1) == DigitValue(lo)
  {
  }

  /** Every hash survives formatting and parsing. */
  lemma DisplayFromStrRoundTrip(h: InfoHash)
    ensures FromStr(Display(h)) == Success(h)
  {
    var s := Display(h);
    assert IsHexText(s);
    var r := FromStr(s);
    forall i | 0 <= i < 20
      ensures r.value.bytes[i] == h.bytes[i]
    {
      assert (2 * i) / 2 == i && (2 * i + 1) / 2 == i;
      PairOfNibbles(s[2 * i] as int, s[2 * i + 1] as int, h.bytes[i]);
    }
    assert r.value.bytes == h.bytes;
  }

  /** A digit character lowers to the table's digit of the same value. */
  lemma LowerDigitOfChar(c: char)
    requires IsHexChar(c)
    ensures LowerChar(c) as int == LowerDigits[DigitValue(c as int)]
  {
  }

  /** A lower-case digit character is the table's digit of its value. */
  lemma LowerHexCharIsTableDigit(c: char)
    requires IsLowerHexChar(c)
    ensures c as int == LowerDigits[DigitValue(c as int)]
  {
  }

  /** A lower-case digit with the value of a digit of either case is that
      digit lowered. */
  lemma SameDigitLowered(d: char, c: char)
    requires IsLowerHexChar(d) && IsHexChar(c)
    requires DigitValue(d as int) == DigitValue(c as int)
    ensures d == LowerChar(c)
  {
    LowerHexCharIsTableDigit(d);
    LowerDigitOfChar(c);
  }

  /** The two characters a parsed byte formats to are its two source
      digits lowered. */
  lemma DisplayPairLowered(h: InfoHash, s: string, i: int)
    requires |s| == 40 && IsHexText(s) && 0 <= i < 20
    requires h.bytes[i] == PairValue(s[2 * i] as int, s[2 * i + 1] as int)
    ensures Display(h)[2 * i] == LowerChar(s[2 * i])
    ensures Display(h)[2 * i + 1] == LowerChar(s[2 * i + 1])
  {
    var d := Display(h);
    assert (2 * i) / 2 == i && (2 * i) % 2 == 0;
    assert (2 * i + 1) / 2 == i && (2 * i + 1) % 2 == 1;
    NibblesOfPair(s[2 * i] as int, s[2 * i + 1] as int);
    SameDigitLowered(d[2 * i], s[2 * i]);
    SameDigitLowered(d[2 * i + 1], s[2 * i + 1]);
  }

  /** A valid text parses and formats back to its lower-case form. */
  lemma FromStrDisplayRoundTrip(s: string)
    requires |s| == 40 && IsHexText(s)
    ensures FromStr(s).Success?
    ensures Display(FromStr(s).value) == ToLower(s)
  {
    var h := FromStr(s).value;
    var d := Display(h);
    var low := ToLower(s);
    forall i | 0 <= i < 20
      ensures d[2 * i] == low[2 * i] && d[2 * i + 1] == low[2 * i + 1]
    {
      DisplayPairLowered(h, s, i);
    }
    PairwiseEqual(d, low, 20);
  }

  /** Two texts of `2 * n` characters that agree on every pair agree. */
  lemma PairwiseEqual(a: string, b: string, n: nat)
    requires |a| == |b| == 2 * n
    requires forall i | 0 <= i < n :: a[2 * i] == b[2 * i] && a[2 * i + 1] == b[2 * i + 1]
    ensures a == b
  {
    forall j | 0 <= j < 2 * n
      ensures a[j] == b[j]
    {
      var i := j / 2;
      assert j == 2 * i || j == 2 * i + 1;
    }
  }

  /** Formatting is injective: distinct hashes have distinct texts. */
  lemma DisplayInjective(a: InfoHash, b: InfoHash)
    requires Display(a) == Display(b)
    ensures a == b
  {
    DisplayFromStrRoundTrip(a);
    DisplayFromStrRoundTrip(b);
  }

  // ---------------------------------------------------------------------
  // Order

  /** `std::cmp::Ordering`. */
  datatype Ordering = Less | Equal | Greater {
    function Reverse(): Ordering {
      match this
      case Less => Greater
      case Equal => Equal
      case Greater => Less
    }
  }

  /** Slice comparison: the first differing byte decides; a proper prefix
      is smaller. */
  function CompareBytes(a: seq<byte>, b: seq<byte>): (r: Ordering)
    ensures r == Equal <==> a == b
    decreases |a|
  {
    if |a| == 0 && |b| == 0 then Equal
    else if |a| == 0 then Less
    else if |b| == 0 then Greater
    else if a[0] < b[0] then Less
    else if a[0] > b[0] then Greater
    else
      assert a == [a[0]] + a[1..] && b == [b[0]] + b[1..];
      CompareBytes(a[1..], b[1..])
  }

  /** The lexicographic order, stated without recursion: `a` is below `b`
      when they first differ at a smaller byte of `a`, or `a` is a proper
      prefix of `b`. */
  ghost predicate LexLess(a: seq<byte>, b: seq<byte>) {
    (exists i :: 0 <= i < |a| && i < |b| && a[..i] == b[..i] && a[i] < b[i])
    || (|a| < |b| && a == b[..|a|])
  }

  lemma {:induction false} CompareReverse(a: seq<byte>, b: seq<byte>)
    ensures CompareBytes(b, a) == CompareBytes(a, b).Reverse()
    decreases |a|
  {
    if |a| > 0 && |b| > 0 && a[0] == b[0] {
      CompareReverse(a[1..], b[1..]);
    }
  }

  lemma {:induction false} CompareTransitive(a: seq<byte>, b: seq<byte>, c: seq<byte>)
    requires CompareBytes(a, b) == Less && CompareBytes(b, c) == Less
    ensures CompareBytes(a, c) == Less
    decreases |a|
  {
    if |a| > 0 && |b| > 0 && |c| > 0 && a[0] == b[0] && b[0] == c[0] {
      CompareTransitive(a[1..], b[1..], c[1..]);
    }
  }

  /** The recursive comparison says `Less` exactly when the reference order
      does. */
  lemma {:induction false} CompareIsLexicographic(a: seq<byte>, b: seq<byte>)
    ensures CompareBytes(a, b) == Less <==> LexLess(a, b)
    decreases |a|
  {
    if |a| == 0 {
      if |b| > 0 {
        assert a == b[..0];
      }
    } else if |b| == 0 {
    } else if a[0] < b[0] {
      assert a[..0] == b[..0];
    } else if a[0] > b[0] {
      if LexLess(a, b) && !(|a| < |b| && a == b[..|a|]) {
        var i :| 0 <= i < |a| && i < |b| && a[..i] == b[..i] && a[i] < b[i];
      }
    } else {
      CompareIsLexicographic(a[1..], b[1..]);
      LexLessTail(a, b);
    }
  }

  /** With equal first bytes, the order is decided by the tails. */
  lemma LexLessTail(a: seq<byte>, b: seq<byte>)
    requires |a| > 0 && |b| > 0 && a[0] == b[0]
    ensures LexLess(a, b) <==> LexLess(a[1..], b[1..])
  {
    if LexLess(a[1..], b[1..]) {
      LexLessCons(a, b);
    }
    if LexLess(a, b) {
      LexLessUncons(a, b);
    }
  }

  /** Putting the same byte in front of both sides keeps the order. */
  lemma LexLessCons(a: seq<byte>, b: seq<byte>)
    requires |a| > 0 && |b| > 0 && a[0] == b[0]
    requires LexLess(a[1..], b[1..])
    ensures LexLess(a, b)
  {
    var a', b' := a[1..], b[1..];
    if |a'| < |b'| && a' == b'[..|a'|] {
      assert a == [a[0]] + a' && b[..|a|] == [b[0]] + b'[..|a'|];
    } else {
      var i :| 0 <= i < |a'| && i < |b'| && a'[..i] == b'[..i] && a'[i] < b'[i];
      assert a[..i + 1] == [a[0]] + a'[..i] && b[..i + 1] == [b[0]] + b'[..i];
      assert a[i + 1] < b[i + 1];
    }
  }

  /** Removing a common first byte keeps the order. */
  lemma LexLessUncons(a: seq<byte>, b: seq<byte>)
    requires |a| > 0 && |b| > 0 && a[0] == b[0]
    requires LexLess(a, b)
    ensures LexLess(a[1..], b[1..])
  {
    var a', b' := a[1..], b[1..];
    if |a| < |b| && a == b[..|a|] {
      assert a' == b'[..|a'|];
    } else {
      var i :| 0 <= i < |a| && i < |b| && a[..i] == b[..i] && a[i] < b[i];
      assert i > 0;
      assert a'[..i - 1] == a[..i][1..] && b'[..i - 1] == b[..i][1..];
      assert a'[i - 1] < b'[i - 1];
    }
  }

  /** `Ord for InfoHash`: byte-array comparison. */
  function Cmp(a: InfoHash, b: InfoHash): (r: Ordering)
    ensures r == Equal <==> a == b
    ensures r == Less <==> LexLess(a.bytes, b.bytes)
  {
    CompareIsLexicographic(a.bytes, b.bytes);
    CompareBytes(a.bytes, b.bytes)
  }

  /** Swapping the operands reverses the answer. */
  lemma CmpReverse(a: InfoHash, b: InfoHash)
    ensures Cmp(b, a) == Cmp(a, b).Reverse()
  {
    CompareReverse(a.bytes, b.bytes);
  }

  /** `PartialOrd for InfoHash`: always defined, and agrees with `Cmp`. */
  function PartialCmp(a: InfoHash, b: InfoHash): (r: Option<Ordering>)
    ensures r.Some?
    ensures r.value == Equal <==> a == b
    ensures r.value == Less <==> LexLess(a.bytes, b.bytes)
  {
    Some(Cmp(a, b))
  }

  /** The order on hashes is transitive. */
  lemma CmpTransitive(a: InfoHash, b: InfoHash, c: InfoHash)
    requires Cmp(a, b) == Less && Cmp(b, c) == Less
    ensures Cmp(a, c) == Less
  {
    CompareTransitive(a.bytes, b.bytes, c.bytes);
  }

  /** The order on hashes is total: exactly one of less, equal, greater. */
  lemma CmpTotal(a: InfoHash, b: InfoHash)
    ensures Cmp(a, b) == Less || a == b || Cmp(b, a) == Less
  {
    CmpReverse(a, b);
  }

  // ---------------------------------------------------------------------
  // The unit tests' cases

  /** `n` copies of one character. */
  function Repeat(c: char, n: nat): (s: string)
    ensures |s| == n && forall i | 0 <= i < n :: s[i] == c
  {
    seq(n, i => c)
  }

  /** The hash whose bytes are all 255. */
  const AllOnes: InfoHash := InfoHash(seq(20, i => 255))

  /** Forty upper-case `F`s parse to the all-ones hash. */
  lemma UpperCaseFsExample()
    ensures FromStr(Repeat('F', 40)) == Success(AllOnes)
  {
    var fs := Repeat('F', 40);
    assert IsHexText(fs);
    var h := FromStr(fs).value;
    assert PairValue('F' as int, 'F' as int) == 255;
    assert h.bytes == AllOnes.bytes;
  }

  /** The all-ones hash formats as forty lower-case `f`s, through `Display`
      and through `to_hex_string`. */
  lemma LowerCaseFsExample()
    ensures Display(AllOnes) == Repeat('f', 40)
    ensures ToHexString(AllOnes) == Repeat('f', 40)
  {
    var fs := Repeat('F', 40);
    UpperCaseFsExample();
    FromStrDisplayRoundTrip(fs);
    assert ToLower(fs) == Repeat('f', 40);
  }

  /** The all-ones hash serialises to forty lower-case `f`s and
      deserialises from them. */
  lemma SerdeFsExample()
    ensures Serialize(AllOnes) == Repeat('f', 40)
    ensures VisitStr(Repeat('f', 40)) == Success(AllOnes)
  {
    LowerCaseFsExample();
    DisplayFromStrRoundTrip(AllOnes);
  }

  /** Forty `G`s are rejected as not hexadecimal. */
  lemma NonHexExample()
    ensures FromStr(Repeat('G', 40)) == Failure(InvalidInput)
  {
    var gs := Repeat('G', 40);
    Utf8OfAscii(gs);
    assert !IsHexChar(gs[0]);
  }

  /** Thirty-nine or forty-one `F`s are rejected by length. */
  lemma WrongLengthExample()
    ensures FromStr(Repeat('F', 39)) == Failure(InvalidInputLength)
    ensures FromStr(Repeat('F', 41)) == Failure(InvalidInputLength)
  {
    Utf8OfAscii(Repeat('F', 39));
    Utf8OfAscii(Repeat('F', 41));
  }

  /** Twenty bytes of 255, as a slice, an array or a vector, give the same
      hash as the text of forty `F`s; nineteen or twenty-one bytes are
      rejected. */
  lemma ByteConstructorsExample()
    ensures FromSlice(seq(20, i => 255)) == AllOnes
    ensures FromArray(seq(20, i => 255)) == AllOnes
    ensures TryFromVec(seq(20, i => 255)) == Success(AllOnes)
    ensures TryFromVec(seq(19, i => 255)) == Failure(NotEnoughBytes(19))
    ensures TryFromVec(seq(21, i => 255)) == Failure(TooManyBytes(21))
  {
  }
}

=== FILE: results.dfy ===
/** Failure-compatible wrappers shared by every module: `Option` for Rust's
    `Option<T>` and `Result` for Rust's `Result<T, E>` (and for the panics the
    decoder raises, which become `Failure` values). */
module Results {

  datatype Option<+T> = None | Some(value: T)

  datatype Result<+T, +E> = Success(value: T) | Failure(error: E) {

    predicate IsFailure() {
      Failure?
    }

    function PropagateFailure<U>(): Result<U, E>
      requires Failure?
    {
      Failure(error)
    }

    function Extract(): T
      requires Success?
    {
      value
    }
  }
}

=== FILE: seqs.dfy ===
/** Sequence combinators behind the decoder's filtering loops and the
    flattening of announce tiers. */
module Seqs {
  import opened Results

  /** Passes every element through `f` and keeps the `Some` payloads, in
      order. This is the shape of the source's
      `for x in xs { if let Shape(..) = x { out.push(..) } }` loops. */
  function Keep<A, B>(xs: seq<A>, f: A -> Option<B>): (r: seq<B>)
    ensures |r| == CountSome(xs, f) <= |xs|
    ensures forall y :: y in r ==> exists i :: 0 <= i < |xs| && f(xs[i]) == Some(y)
  {
    if |xs| == 0 then []
    else
      var rest := Keep(xs[1..], f);
      assert forall y :: y in rest ==> exists i :: 0 <= i < |xs| && f(xs[i]) == Some(y) by {
        forall y | y in rest
          ensures exists i :: 0 <= i < |xs| && f(xs[i]) == Some(y)
        {
          var j :| 0 <= j < |xs[1..]| && f(xs[1..][j]) == Some(y);
          assert f(xs[j + 1]) == Some(y);
        }
      }
      match f(xs[0])
      case Some(y) => [y] + rest
      case None => rest
  }

  /** The number of elements satisfying `p`. */
  function Count<A>(xs: seq<A>, p: A -> bool): nat {
    if |xs| == 0 then 0 else (if p(xs[0]) then 1 else 0) + Count(xs[1..], p)
  }

  /** The number of elements `f` maps to `Some`. */
  function CountSome<A, B>(xs: seq<A>, f: A -> Option<B>): (n: nat)
    ensures n <= |xs|
  {
    if |xs| == 0 then 0 else (if f(xs[0]).Some? then 1 else 0) + CountSome(xs[1..], f)
  }

  /** Counting the elements `f` keeps is counting those `p` accepts, when
      the two agree element by element. */
  lemma {:induction false} CountSomeIsCount<A, B>(xs: seq<A>, f: A -> Option<B>, p: A -> bool)
    requires forall i | 0 <= i < |xs| :: f(xs[i]).Some? == p(xs[i])
    ensures CountSome(xs, f) == Count(xs, p)
  {
    if |xs| > 0 {
      CountSomeIsCount(xs[1..], f, p);
    }
  }

  /** Keep never loses a kept element: every `Some` image appears in the output. */
  lemma {:induction false} KeepComplete<A, B>(xs: seq<A>, f: A -> Option<B>, i: int)
    requires 0 <= i < |xs| && f(xs[i]).Some?
    ensures f(xs[i]).value in Keep(xs, f)
  {
    if i > 0 {
      KeepComplete(xs[1..], f, i - 1);
      assert xs[1..][i - 1] == xs[i];
    }
  }

  /** Keep distributes over concatenation: it preserves the input order. */
  lemma {:induction false} KeepAppend<A, B>(a: seq<A>, b: seq<A>, f: A -> Option<B>)
    ensures Keep(a + b, f) == Keep(a, f) + Keep(b, f)
  {
    if |a| > 0 {
      assert (a + b)[1..] == a[1..] + b;
      KeepAppend(a[1..], b, f);
    } else {
      assert a + b == b;
    }
  }

  /** When `f` accepts every element, Keep is an element-wise map. */
  lemma {:induction false} KeepAll<A, B>(xs: seq<A>, f: A -> Option<B>)
    requires forall i | 0 <= i < |xs| :: f(xs[i]).Some?
    ensures |Keep(xs, f)| == |xs|
    ensures forall i | 0 <= i < |xs| :: Keep(xs, f)[i] == f(xs[i]).value
  {
    if |xs| > 0 {
      KeepAll(xs[1..], f);
    }
  }

  /** When `f` rejects every element, Keep is empty. */
  lemma {:induction false} KeepNone<A, B>(xs: seq<A>, f: A -> Option<B>)
    requires forall i | 0 <= i < |xs| :: f(xs[i]).None?
    ensures Keep(xs, f) == []
  {
    if |xs| > 0 {
      KeepNone(xs[1..], f);
    }
  }

  /** Sum of the lengths of the inner sequences. */
  function TotalLength<T>(xss: seq<seq<T>>): nat {
    if |xss| == 0 then 0 else |xss[0]| + TotalLength(xss[1..])
  }

  /** The inner sequences laid end to end, in order (Rust's `flatten`). */
  function Concat<T>(xss: seq<seq<T>>): (r: seq<T>)
    ensures |r| == TotalLength(xss)
    ensures forall x :: x in r ==> exists i :: 0 <= i < |xss| && x in xss[i]
  {
    if |xss| == 0 then []
    else
      var rest := Concat(xss[1..]);
      assert forall x :: x in rest ==> exists i :: 0 <= i < |xss| && x in xss[i] by {
        forall x | x in rest
          ensures exists i :: 0 <= i < |xss| && x in xss[i]
        {
          var j :| 0 <= j < |xss[1..]| && x in xss[1..][j];
          assert x in xss[j + 1];
        }
      }
      xss[0] + rest
  }

  /** Concat loses nothing: every element of every inner sequence appears. */
  lemma {:induction false} ConcatComplete<T>(xss: seq<seq<T>>, i: int, x: T)
    requires 0 <= i < |xss| && x in xss[i]
    ensures x in Concat(xss)
  {
    if i > 0 {
      ConcatComplete(xss[1..], i - 1, x);
      assert xss[1..][i - 1] == xss[i];
    }
  }

  /** Concat distributes over concatenation of the outer sequence. */
  lemma {:induction false} ConcatAppend<T>(a: seq<seq<T>>, b: seq<seq<T>>)
    ensures Concat(a + b) == Concat(a) + Concat(b)
  {
    if |a| > 0 {
      assert (a + b)[1..] == a[1..] + b;
      ConcatAppend(a[1..], b);
    } else {
      assert a + b == b;
    }
  }
}

=== FILE: torrent_file.dfy ===
/** The typed torrent metadata model (`Torrent`, `TorrentInfo`,
    `TorrentFile`, `TorrentNode`), its two default values, and the two
    accessors computed at read time: the total size and the announce URLs. */
module Torrents {
  import opened Results
  import opened Bencode
  import opened Seqs

  /** A DHT bootstrap node: host and port. */
  datatype TorrentNode = TorrentNode(host: string, port: int64)

  /** One entry of a multi-file torrent. */
  datatype TorrentFile = TorrentFile(path: seq<string>, length: int64, md5sum: Option<string>)

  datatype TorrentInfo = TorrentInfo(
    name: string,
    pieces: Option<seq<byte>>,
    pieceLength: int64,
    md5sum: Option<string>,
    length: Option<int64>,
    files: Option<seq<TorrentFile>>,
    private: Option<byte>,
    path: Option<seq<string>>,
    rootHash: Option<string>,
    source: Option<string>)

  datatype Torrent = Torrent(
    info: TorrentInfo,
    announce: Option<string>,
    nodes: Option<seq<TorrentNode>>,
    encoding: Option<string>,
    httpseeds: Option<seq<string>>,
    announceList: Option<seq<seq<string>>>,
    creationDate: Option<int64>,
    comment: Option<string>,
    createdBy: Option<string>)

  /** `TorrentInfo::default()`: note `pieces` is an empty buffer and `length`
      is zero, not absent. */
  const DefaultInfo: TorrentInfo := TorrentInfo(
    name := "",
    pieces := Some([]),
    pieceLength := 0,
    md5sum := None,
    length := Some(0),
    files := None,
    private := None,
    path := None,
    rootHash := None,
    source := None)

  /** `Torrent::default()`: note `announceList` is an empty tier list, not
      absent. */
  const DefaultTorrent: Torrent := Torrent(
    info := DefaultInfo,
    announce := None,
    nodes := None,
    encoding := None,
    httpseeds := None,
    announceList := Some([]),
    creationDate := None,
    comment := None,
    createdBy := None)

  /** The sum of the file lengths, defined by structure. */
  function SumLengths(files: seq<TorrentFile>): int {
    if |files| == 0 then 0 else files[0].length + SumLengths(files[1..])
  }

  lemma {:induction false} SumLengthsAppend(a: seq<TorrentFile>, b: seq<TorrentFile>)
    ensures SumLengths(a + b) == SumLengths(a) + SumLengths(b)
  {
    if |a| > 0 {
      assert (a + b)[1..] == a[1..] + b;
      SumLengthsAppend(a[1..], b);
    } else {
      assert a + b == b;
    }
  }

  /** The accumulation loop `for file in files { file_size += file.length }`
      started from `acc`. The sum is over mathematical integers. */
  function AccumulateLengths(files: seq<TorrentFile>, acc: int): (total: int)
    ensures total == acc + SumLengths(files)
  {
    if |files| == 0 then acc
    else AccumulateLengths(files[1..], acc + files[0].length)
  }

  /** `file_size`: the single-file length when present; otherwise the sum of
      the file lengths when there is a file list; otherwise zero. */
  function FileSize(t: Torrent): (size: int)
    ensures t.info.length.Some? ==> size == t.info.length.value
    ensures t.info.length.None? && t.info.files.Some? ==> size == SumLengths(t.info.files.value)
    ensures t.info.length.None? && t.info.files.None? ==> size == 0
  {
    match t.info.length
    case Some(length) => length
    case None =>
      match t.info.files
      case None => 0
      case Some(files) => AccumulateLengths(files, 0)
  }

  /** `announce_urls` panics when neither source of URLs is present. */
  datatype AnnounceError = MissingAnnounce

  /** `announce_urls`: the announce tiers flattened in order when there is a
      tier list (the single `announce` URL is then ignored); otherwise the
      single `announce` URL; otherwise an error. */
  function AnnounceUrls(t: Torrent): (r: Result<seq<string>, AnnounceError>)
    ensures r.Failure? <==> t.announceList.None? && t.announce.None?
    ensures r.Success? && t.announceList.Some? ==>
      |r.value| == TotalLength(t.announceList.value) &&
      forall u :: u in r.value <==> exists i :: 0 <= i < |t.announceList.value| && u in t.announceList.value[i]
    ensures r.Success? && t.announceList.None? ==> r.value == [t.announce.value]
  {
    match t.announceList
    case Some(tiers) =>
      var urls := Concat(tiers);
      assert forall u :: (exists i :: 0 <= i < |tiers| && u in tiers[i]) ==> u in urls by {
        forall u | exists i :: 0 <= i < |tiers| && u in tiers[i]
          ensures u in urls
        {
          var i :| 0 <= i < |tiers| && u in tiers[i];
          ConcatComplete(tiers, i, u);
        }
      }
      Success(urls)
    case None =>
      match t.announce
      case Some(url) => Success([url])
      case None => Failure(MissingAnnounce)
  }

  /** The tiers of a tier list contribute their URLs in tier order. */
  lemma AnnounceUrlsTierOrder(t: Torrent, tiers1: seq<seq<string>>, tiers2: seq<seq<string>>)
    requires t.announceList == Some(tiers1 + tiers2)
    ensures AnnounceUrls(t) == Success(Concat(tiers1) + Concat(tiers2))
  {
    ConcatAppend(tiers1, tiers2);
  }

  /** The total size of the concatenation of two file lists is the sum of
      their total sizes. */
  lemma FileSizeSplits(t: Torrent, files1: seq<TorrentFile>, files2: seq<TorrentFile>)
    requires t.info.length.None? && t.info.files == Some(files1 + files2)
    ensures FileSize(t) == SumLengths(files1) + SumLengths(files2)
  {
    SumLengthsAppend(files1, files2);
  }

  /** The default torrent reports an empty URL list (not an error) and a
      total size of zero. */
  lemma DefaultTorrentAccessors()
    ensures AnnounceUrls(DefaultTorrent) == Success([])
    ensures FileSize(DefaultTorrent) == 0
  {
  }

  /** Two files of 30 and 70 bytes and no single-file length: total 100. */
  lemma MultiFileSizeExample(t: Torrent)
    requires t.info.length.None?
    requires t.info.files == Some([TorrentFile([], 30, None), TorrentFile([], 70, None)])
    ensures FileSize(t) == 100
  {
    assert SumLengths([TorrentFile([], 70, None)]) == 70;
  }
}
